=== FILE: README.md ===
# Distribute — a Dafny model of the distribution engine

Distribute copies photos from a source directory into a destination tree
whose sub-directories are named by each photo's EXIF capture date. This
project models its core as pure Dafny functions over immutable data and
proves properties of that model:

- **Indexer** (`indexer.dfy`, module `Indexer`): `GetImagePaths`, a pre-order
  walk of a directory tree bounded by a maximum depth. It skips a file when
  the metadata reader throws an `ImageProcessingException`, finds no
  `ExifSubIfdDirectory`, or finds no parsable `DateTimeOriginal`; it keeps
  every other file with its capture date. Any other exception from the
  reader (an `IOException` on a locked file, an
  `UnauthorizedAccessException`) is not caught and ends the command.
- **Copy pass** (`copy_pass.dfy`, module `CopyPass`, and `naming.dfy`, module
  `Naming`): `CopyImages`. It drains a queue of images and builds each
  destination as `to + "\" + format(date, structure) + fileName`. A
  structure string that `DateTime.ToString` rejects ends the command. If a
  suffix is given, it applies the code's `Split('.')` rule. It then creates
  the destination directory when that directory is missing and tries the copy.
  An `IOException` sends the image to the duplicates queue.
- **Driver** (`distribute_command.dfy`, module `DistributeCommand`):
  `Execute`. It indexes, runs a first pass, and then runs at most one second
  pass over the duplicates, as the user's answer selects. `Done` describes
  the outcome of a whole run. An uncaught exception while indexing or in a
  pass ends the run as `Aborted`.
- **Options** (`options.dfy`, module `CommandOptions`): how the constructor
  fills in defaults, and the four ordered checks of `Validate`.
- **Backend selection** (`file_system_factory.dfy`, module
  `FileSystemFactory`): `FileSystemFactory.From`.
- **Media device** (`media_device.dfy`, module `MediaDevice`): the
  process-wide device registry, which is memoised by device name, and
  `TrimDeviceName`. Every path-taking operation sends the device the trimmed
  path.

Helper modules: `Wrappers` (Option/Result), `Text` (.NET `IndexOf`,
`LastIndexOf` and `Split` on a char) and `Sequences`
(order-preserving subsequences).

The outside world enters the model as parameters:

- the directory tree found at the source path (`Indexer.Dir`);
- the EXIF reader (`Indexer.Exif`, one result per path);
- `DateTime.ToString(format)` (`None` where it throws a `FormatException`),
  `Path.GetFileName` and the outcome of `File.Copy` on the current
  destination volume (`CopyPass.Env`);
- `Path.GetFullPath`, a partial function returning `None` where it throws;
- the current directory;
- the platform flag;
- the list of attached devices;
- the answer the user gives to the duplicate prompt.

The destination volume (`CopyPass.Volume`) records the directories that exist
and, for each file, which source it was copied from. That record is what
lets the lemmas say "never overwritten".

Behaviour of the command that the model keeps:

- Any `IOException` from `File.Copy` makes an image a duplicate. That covers
  an existing target and also a missing target directory.
- A permission failure, or any other exception, is not caught and ends the
  command.
- The rename rule splits the whole destination path on '.'. It does not
  insert the suffix before the last extension (see Findings).
- A collision in the "_copy" pass is just another duplicate, and it is
  dropped.
- The remove-originals flag is parsed, but nothing deletes originals.

## Model

| member | source | states |
|---|---|---|
| Indexer.Qualifying | DistributeCommand.cs:150-178 | a directory's images are at most as many as its files, and each one's path is one of the files, carrying exactly the date the reader gives for it |
| Indexer.QualifyingExact | DistributeCommand.cs:150-178 | a file yields an entry iff the reader neither throws nor misses the sub-IFD directory nor misses a parsable DateTimeOriginal, and the entry carries that date |
| Indexer.QualifyingOrdered | DistributeCommand.cs:148-178 | entries keep the listing order of the files (their paths are a subsequence of the listing) |
| Indexer.Walk | DistributeCommand.cs:142-203 | a directory's own images come first; when depth >= maxDepth nothing below it is visited |
| Indexer.WalkSound | DistributeCommand.cs:150-200 | every indexed image is a file of a directory k levels down with k = 0 or depth + k <= maxDepth, and carries the reader's date |
| Indexer.WalkComplete | DistributeCommand.cs:180-200 | every dated file of such a visited directory is indexed |
| Indexer.DepthBound | DistributeCommand.cs:180-200 | from depth 0, an image is indexed iff its file lies in a directory at most maxDepth levels down and the reader dates it; deeper files are never visited |
| Indexer.WalkOrdered | DistributeCommand.cs:148-202 | indexed paths follow the tree's pre-order listing: own files in listing order, then each subdirectory in listing order |
| Indexer.WalkExamines | DistributeCommand.cs:142-203 | the walk's result is exactly the dated files among the files whose metadata it reads, in reading order |
| Indexer.ExaminedBound | DistributeCommand.cs:180-200 | from depth 0, the walk reads a file's metadata iff the file lies in a directory at most maxDepth levels down |
| Indexer.AbortBound | DistributeCommand.cs:150-200 | from depth 0, the walk ends the command iff some file at most maxDepth levels down makes the reader throw something other than an ImageProcessingException |
| Naming.SplitSuffix | DistributeCommand.cs:113-118 | the rename fails iff the path has no '.'; otherwise it is the text before the first '.', the suffix, '.', and the text up to the second '.' |
| Naming.SplitSuffixShape | DistributeCommand.cs:113-118 | with dot-free pieces, a.b becomes a+suffix+".b", and anything after a second dot is dropped |
| Naming.DottedDirectoryCounterexample | DistributeCommand.cs:111-118 | a dot in the destination directory moves the suffix into the directory and loses the extension, unlike the intended rule |
| Naming.MultiDotCounterexample | DistributeCommand.cs:113-118 | a file name with two dots loses its real extension under the rule as written, unlike the intended rule |
| Naming.InsertSuffix | DistributeCommand.cs:113-118 | intended rule: the result starts with the directory, is as long as directory, name and suffix together, and keeps the name's extension when the name has a '.' and the suffix has none |
| Naming.InsertSuffixKeepsPath | DistributeCommand.cs:113-118 | intended rule keeps the directory and the extension; removing the suffix gives back exactly the original destination |
| Naming.InsertSuffixShape | DistributeCommand.cs:113-118 | intended rule turns stem.ext into stem+suffix+".ext" |
| CopyPass.DestinationDirectory | DistributeCommand.cs:111 | the directory is the root, a backslash and the formatted capture date; there is none exactly when formatting throws |
| CopyPass.Destination | DistributeCommand.cs:111-118 | without a suffix the destination is the directory followed directly by the file name; with a suffix the rename fails exactly when that path holds no '.' |
| CopyPass.DestinationInCreatedTree | DistributeCommand.cs:111-112 | without a suffix, and with a separator-free file name, the destination's parent is the created directory or a directory above it |
| CopyPass.AncestorsExact | DistributeCommand.cs:122 | the directories above a path are exactly its proper prefixes that end in a backslash |
| CopyPass.EnsureDirectory | DistributeCommand.cs:120-123 | afterwards the directory exists and no directory is lost; it was created iff it was missing, and then every directory above it exists too and nothing else was added; files untouched |
| CopyPass.EnsureDirectoryKeepsClosed | DistributeCommand.cs:120-123 | on a volume where every directory's ancestors exist, afterwards the directory and all its ancestors exist and that still holds |
| CopyPass.EnsureDirectoryIdempotent | DistributeCommand.cs:120-123 | ensuring a directory a second time creates nothing and changes nothing |
| CopyPass.Process | DistributeCommand.cs:110-132 | per image: a date-format or rename-rule exception aborts before anything happens; otherwise the destination directory exists afterwards, the directories are those the ensure leaves, an IOException makes a duplicate with no file written, any other exception aborts, and a copy records the source at the destination and changes nothing else |
| CopyPass.Pass | DistributeCommand.cs:91-139 | directories only grow; after a finished pass every file that existed still exists; its duplicates are an order-preserving subsequence of the queue; every image's directory exists and each image is either a duplicate or has its destination file |
| CopyPass.Steps | DistributeCommand.cs:108-136 | there is at most one step per image; every step but the last is processed, and the steps stop before the queue ends only at a crash |
| CopyPass.StepsTrace | DistributeCommand.cs:108-136 | the k-th step is the per-image step of the k-th image on the volume the earlier steps left |
| CopyPass.PassFollowsSteps | DistributeCommand.cs:91-139 | a pass crashes iff its last step crashed, leaves the volume of its last step, and its duplicates are exactly the images whose step got an IOException, in queue order |
| CopyPass.PassOutcome | DistributeCommand.cs:110-132 | in a finished pass the k-th image is a duplicate iff File.Copy raised an IOException on the volume at its turn; otherwise its own source is recorded at its destination and no other file changes |
| CopyPass.MisplacedTargetIsDuplicate | DistributeCommand.cs:111-132 | when File.Copy into a missing directory raises an IOException, as .NET documents, a target outside the directory the pass creates, outside every directory above it and outside every existing directory fails with an IOException and becomes a duplicate, writing nothing |
| CopyPass.CreatedTreeTargetCopies | DistributeCommand.cs:111-132 | when File.Copy fails only on a missing directory or, without overwriting, an existing target, and on a volume where every directory's ancestors exist, a target in the created directory or above it is copied, unless it is taken and overwriting is off; the source is recorded at the target |
| CopyPass.CopyImages | DistributeCommand.cs:91-139 | the do-while drain over a non-empty queue computes the pass image by image, with at most as many duplicates as images |
| CopyPass.NoOverwriteKeepsFiles | DistributeCommand.cs:125-132 | with overwrite off, and File.Copy never replacing an existing target as .NET documents, no existing file is replaced or lost (a taken "_copy" name is left a duplicate) |
| CopyPass.OverwriteLeavesNoDuplicates | DistributeCommand.cs:82-84 | an overwriting pass without suffix whose images all land in the directories it creates finishes with no duplicates, when File.Copy fails only on a missing directory or, without overwriting, an existing target |
| CopyPass.FreshPassCopiesAll | DistributeCommand.cs:125-132 | when each image lands in the directory created for it and destinations are distinct and untaken, a non-overwriting pass copies every image from its own source, with no duplicates |
| DistributeCommand.Execute | DistributeCommand.cs:20-88 | an uncaught exception while indexing aborts with no pass; passes never get an empty queue; a first pass (no overwrite, no suffix) runs iff images were indexed; a second pass runs only on non-empty duplicates and not for Skip; Overwrite passes (duplicates, true, no suffix), the third answer passes (duplicates, false, "_copy"); at most two passes; the exit code is always 0 |
| DistributeCommand.CollisionFreeRunIsOnePass | DistributeCommand.cs:45-58 | when indexing succeeds, File.Copy fails only on a missing directory or an existing target, and no image collides or misses its directory, the run stops after one pass with code 0 and every indexed image copied to its destination |
| CommandOptions.Create | Options.cs:19-31 | the "The current directory." sentinel becomes the current directory and other values are kept verbatim; a null structure becomes yyyy\\MM\\; depth and remove are stored unchanged |
| CommandOptions.Validate | Options.cs:74-105 | fails with the first of: depth < 1, both locations equal the current directory, From not normalisable, To not normalisable; succeeds iff all four pass and then stores both full paths |
| CommandOptions.DefaultsAreRejected | Options.cs:81-84 | leaving both locations at their defaults is rejected once the depth is valid |
| CommandOptions.ExplicitLocationAccepted | Options.cs:86-104 | an explicit, normalisable source with a valid depth passes, and the stored paths are the normalised ones |
| FileSystemFactory.Classify | FS/FileSystemFactory.cs:7-28 | fails only when a colon-free path cannot be normalised; off Windows always Normal; on Windows a device iff the text before the first ':' of the normalised path is longer than one character, and that text names the device |
| FileSystemFactory.From | FS/FileSystemFactory.cs:7-28 | exactly one backend or an error; Normal leaves the registry alone; a device result is the device constructor's result and registry |
| FileSystemFactory.DriveLetterIsNormal | FS/FileSystemFactory.cs:18-27 | a one-letter drive such as C: selects Normal |
| FileSystemFactory.QualifiedPathSelectsDevice | FS/FileSystemFactory.cs:18-24 | on Windows name:rest with a longer colon-free name selects the device name |
| FileSystemFactory.OtherPlatformsAreNormal | FS/FileSystemFactory.cs:16-27 | off Windows From returns Normal and leaves the registry alone |
| FileSystemFactory.DevicePathReachesDeviceTrimmed | FS/FileSystemFactory.cs:18-24 | the device built for name:rest is named name, and its trimming hands rest to the device |
| MediaDevice.FirstNamed | FS/MediaDevice.cs:33 | the index found is the first device with the name, or past the end when there is none |
| MediaDevice.Open | FS/MediaDevice.cs:14-36 | a cached name reuses its device and leaves the registry alone; an unattached name fails with the registry unchanged; otherwise the first attached device with that name is stored under the name only (no other key changes) and connected |
| MediaDevice.OpenIsMemoised | FS/MediaDevice.cs:18-22 | opening a name again after success returns the same device and registry, whatever devices are attached then |
| MediaDevice.TrimDeviceName | FS/MediaDevice.cs:38-44 | a path without ':' is unchanged; one with ':' loses as many leading characters as the device name has plus one, and slicing past its end fails |
| MediaDevice.TrimQualified | FS/MediaDevice.cs:38-41 | DeviceName + ":" + rest is trimmed to rest |
| MediaDevice.Requests | FS/MediaDevice.cs:46-121 | every path-taking operation sends the device only the trimmed path |
| MediaDevice.QualifiedPathSameRequests | FS/MediaDevice.cs:46-121 | name:rest and rest reach the device as the same calls |
| MediaDevice.Exists | FS/MediaDevice.cs:62-69 | PathExists fails iff its device calls cannot be made; otherwise it is true iff the trimmed path is a file or a directory on the device, which is the answer to the last call it makes |
| MediaDevice.ExistsShortCircuits | FS/MediaDevice.cs:62-69 | PathExists fails iff its calls cannot be made; it first asks about a file, asks about a directory only when the file answer is no, and returns the last answer |
| MediaDevice.QualifiedPathSameExists | FS/MediaDevice.cs:62-69 | name:rest and rest give the same PathExists result |

## Left out

- Console output (progress bars, rules, markup) and the selection prompt are presentation only. The prompt's answer is the `Choice` input.
- The EXIF decoder (MetadataExtractor) is a foreign library. It is the per-path `Exif` oracle, and reading the same path always gives the same result. Which exceptions it raises for which file is part of that oracle.
- `DateTime.ToString(structure)`, `Path.GetFileName`, `Path.GetFullPath`, `Directory.GetCurrentDirectory` and the outcome of `File.Copy` are library behaviour. They are opaque parameters; where the library throws, the parameter says so (`None`, or a copy outcome).
- The directory tree is a fixed value: listing it with `Directory.GetFiles` and `Directory.GetDirectories` cannot fail or change during the walk.
- `Directory.Exists` and `Directory.CreateDirectory` are modelled on a set of directories, and `CreateDirectory` always succeeds. It creates the directory and every directory above it (each prefix ending in a backslash). A failing `CreateDirectory` is not modelled. The volume need not be closed, meaning that a directory's ancestors need not exist; the lemmas that depend on this say so with `Closed`.
- An uncaught exception from the metadata reader (other than an `ImageProcessingException`) is raised while indexing, before any pass: the command ends `Aborted` with no pass run. An uncaught exception from date formatting, from the suffix rule's out-of-range index, or from `File.Copy` other than an `IOException` ends the pass as `Crashed` and the command as `Aborted`. The exit code the command framework then reports is outside the model.
- The `lock (Device)` blocks exist for concurrency. The model is sequential.
- The MediaDevices library calls are out of scope: the contents of listings, `OpenRead` buffering, `OpenWrite` uploads, `Dispose` and `Disconnect`. `Requests` says only which calls are made and on which path.
- `Device.Connect` failing after the registry entry is stored is not modelled.
- FS/Normal.cs passes every call straight to System.IO and has no logic of its own.
- FS/FileSystem.cs is only an abstract signature list, and it does not match the overrides.
- Program.cs is application bootstrap.
- Deleting originals: `Remove` is stored but never read by the command, so no remover is modelled.
- `GetImagePaths`' `uint depth + 1` cannot wrap, because it only runs while `depth < maxDepth` and `maxDepth` is an `int`. Depth is therefore a `nat`.
- CopyPass.NoOverwriteKeepsFiles: assumes only .NET's documented rule that `File.Copy(source, target, false)` never succeeds on an existing target (`NeverReplaces`); every other outcome stays open.
- CopyPass.OverwriteLeavesNoDuplicates: stated only for a `File.Copy` whose sole I/O errors are a missing target directory and, without overwriting, an existing target (`IdealFileCopy`). Permission errors, full disks and locked files are outside it.
- CopyPass.CreatedTreeTargetCopies: stated under the same `IdealFileCopy` assumption.
- CopyPass.MisplacedTargetIsDuplicate: assumes only .NET's documented rule that `File.Copy` into a missing directory raises an `IOException` (`MissingDirectoryFails`); every other outcome stays open.
- CopyPass.FreshPassCopiesAll: stated under the same `IdealFileCopy` assumption, and only for images whose destination lies directly in the directory the pass creates for them.
- DistributeCommand.CollisionFreeRunIsOnePass: stated under the same `IdealFileCopy` assumption. A permission error raises an `UnauthorizedAccessException`, which crashes the pass. A full disk or a locked file raises an `IOException`, which leaves a duplicate. Either way the run need not end after one pass with code 0.
- CopyPass.Pass: its own contract summarises the pass; the exact per-image outcome (which images become duplicates and what each copy writes) is stated by `CopyPass.PassFollowsSteps` and `CopyPass.PassOutcome`.
- Paths are compared as exact strings, letter case included, both for directories (`Directory.Exists`, the `dirs` set) and for files (the `files` map). `D:\x\` and `D:\x` are different directories in the model, and so are `D:\p\IMG1.JPG` and `D:\p\img1.jpg`, which NTFS treats as one file. `IdealFileCopy`, `FreshDestinations` and `Process`'s promise that no other file changes are therefore stated for a case-sensitive volume. On a case-insensitive one, two images whose names differ only in case collide: without overwriting the second becomes a duplicate, and with overwriting it replaces the first.

## Findings

| source | as written | input that shows it | evidently intended | confidence | as-written member | corrected member |
|---|---|---|---|---|---|---|
| DistributeCommand.cs:113-118 | the "_copy" suffix is applied by splitting the whole destination path on '.', keeping pieces 0 and 1 | destination root `D:\my.photos`, file `img1.jpg` taken in June 2023, default structure `yyyy\\MM\\`: the copy goes to `D:\my_copy.photos\2023\06\img1` (directory changed, extension lost); file `photo.edit.jpg` becomes `photo_copy.edit` | insert the suffix into the file name, before its last extension, leaving the directory alone | medium, not executed | Naming.SplitSuffix | Naming.InsertSuffix |

`Naming.DottedDirectoryCounterexample` and `Naming.MultiDotCounterexample`
show that the two rules disagree on those inputs. `Naming.InsertSuffixKeepsPath`
and `Naming.InsertSuffixShape` prove the intended rule's properties. The copy
pass and the driver keep the rule as written, so that they describe what the
command does. With a dotted destination root, the renamed target lies in a
directory that was never created, so the copy fails with an `IOException`
(`CopyPass.MisplacedTargetIsDuplicate`). That image then ends as an
unreported duplicate.

=== FILE: copy_pass.dfy ===
/** One copy pass of DistributeCommand.cs (`CopyImages`): drain the queue of
    indexed images, copy each one under the destination root into the
    directory its capture date names, and queue the ones whose copy fails
    with an I/O error as duplicates. */
module CopyPass {

  import opened Wrappers
  import opened Indexer
  import Naming
  import Text
  import Sequences

  /** The destination volume: the directories that exist, and for every file
      that exists the source path it was copied from (for files that were
      there before the run, whatever the caller chooses). */
  datatype Volume = Volume(dirs: set<string>, files: map<string, string>)

  /** What `File.Copy` does: it copies, throws an `IOException` (caught by the
      pass), or throws anything else (not caught: the command aborts). */
  datatype CopyOutcome = Copied | IOFailure | Fault

  /** The library behaviour the pass depends on: `DateTime.ToString(format)`,
      which throws a `FormatException` on a malformed structure string (`None`
      here), `Path.GetFileName`, and the outcome of `File.Copy(source, target,
      overwrite)` on a volume. */
  datatype Env = Env(
    format: (DateTime, string) -> Option<string>,
    fileName: string -> string,
    copy: (Volume, string, string, bool) -> CopyOutcome)

  /** The arguments of one pass besides its queue; `suffix` is `None` for the
      code's `null`. */
  datatype PassArgs = PassArgs(to: string, structure: string, overwrite: bool, suffix: Option<string>)

  datatype StepResult = Processed(vol: Volume, duplicate: bool) | Crash(vol: Volume)

  datatype PassResult = Finished(vol: Volume, duplicates: seq<Image>) | Crashed(vol: Volume)

  /** The directory an image goes to: the root, a backslash, and the capture
      date formatted with the structure string; `None` when formatting throws. */
  function DestinationDirectory(img: Image, args: PassArgs, env: Env): (r: Option<string>)
    ensures r.None? <==> env.format(img.taken, args.structure).None?
    ensures r.Some? ==> args.to + "\\" <= r.value && '\\' in r.value
    ensures r.Some? ==> r.value[|args.to| + 1..] == env.format(img.taken, args.structure).value
  {
    match env.format(img.taken, args.structure)
    case None => None
    case Some(dated) => Some(args.to + "\\" + dated)
  }

  /** The full destination path: the directory followed directly by the file
      name (no separator in between), with the suffix rule applied when a
      suffix is given; `None` when formatting or that rule throws. */
  function Destination(img: Image, args: PassArgs, env: Env): (r: Option<string>)
    ensures r.Some? ==> DestinationDirectory(img, args, env).Some?
    ensures DestinationDirectory(img, args, env).Some? ==>
      var path := DestinationDirectory(img, args, env).value + env.fileName(img.path);
      && (args.suffix.None? ==> r == Some(path))
      && (args.suffix.Some? ==> (r.None? <==> '.' !in path))
  {
    match DestinationDirectory(img, args, env)
    case None => None
    case Some(directory) =>
      var path := directory + env.fileName(img.path);
      if args.suffix.None? then Some(path) else Naming.SplitSuffix(path, args.suffix.value)
  }

  /** The directories above `dir`: every proper prefix of it that ends in a
      backslash. */
  function Ancestors(dir: string): set<string>
  {
    set i | 0 <= i < |dir| - 1 && dir[i] == '\\' :: dir[..i + 1]
  }

  /** The ancestors are exactly the proper prefixes that end in a backslash. */
  lemma AncestorsExact(dir: string, p: string)
    ensures p in Ancestors(dir) <==> p < dir && |p| > 0 && p[|p| - 1] == '\\'
  {
    if p < dir && |p| > 0 && p[|p| - 1] == '\\' {
      assert p == dir[..|p| - 1 + 1];
    }
  }

  /** A volume in which every directory's ancestors exist, as on a real disk. */
  ghost predicate Closed(vol: Volume)
  {
    forall d :: d in vol.dirs ==> Ancestors(d) <= vol.dirs
  }

  /** The directory is created only when it does not exist yet, and creating
      it also creates every missing directory above it. */
  function EnsureDirectory(vol: Volume, dir: string): (r: (Volume, bool))
    ensures dir in r.0.dirs && vol.dirs <= r.0.dirs
    ensures r.0.files == vol.files
    ensures r.1 <==> dir !in vol.dirs
    ensures !r.1 ==> r.0 == vol
    ensures r.1 ==> r.0.dirs - vol.dirs <= Ancestors(dir) + {dir}
    ensures r.1 ==> Ancestors(dir) <= r.0.dirs
  {
    if dir in vol.dirs then (vol, false)
    else (vol.(dirs := vol.dirs + {dir} + Ancestors(dir)), true)
  }

  /** Ensuring a directory twice is the same as ensuring it once. */
  lemma EnsureDirectoryIdempotent(vol: Volume, dir: string)
    ensures var once := EnsureDirectory(vol, dir).0;
            EnsureDirectory(once, dir) == (once, false)
  {
  }

  /** On a closed volume, afterwards the directory and all of its ancestors
      exist, and the volume is still closed. */
  lemma EnsureDirectoryKeepsClosed(vol: Volume, dir: string)
    requires Closed(vol)
    ensures var after := EnsureDirectory(vol, dir).0;
            Ancestors(dir) + {dir} <= after.dirs && Closed(after)
  {
    var after := EnsureDirectory(vol, dir).0;
    forall d | d in after.dirs
      ensures Ancestors(d) <= after.dirs
    {
      if d !in vol.dirs {
        forall p | p in Ancestors(d)
          ensures p in Ancestors(dir)
        {
          AncestorsExact(d, p);
          if d != dir {
            AncestorsExact(dir, d);
          }
          AncestorsExact(dir, p);
        }
      }
    }
  }

  /** One iteration of the drain loop for `img`. */
  function Process(img: Image, args: PassArgs, env: Env, vol: Volume): (r: StepResult)
    ensures Destination(img, args, env).None? ==> r == Crash(vol)
    ensures Destination(img, args, env).Some? ==>
      var directory := DestinationDirectory(img, args, env).value;
      var target := Destination(img, args, env).value;
      var before := EnsureDirectory(vol, directory).0;
      && directory in r.vol.dirs
      && r.vol.dirs == before.dirs
      && (r.Crash? <==> env.copy(before, img.path, target, args.overwrite) == Fault)
      && (r.Processed? ==> (r.duplicate <==> env.copy(before, img.path, target, args.overwrite) == IOFailure))
      && (r.Processed? && r.duplicate ==> r.vol.files == vol.files)
      && (r.Processed? && !r.duplicate ==> r.vol.files == vol.files[target := img.path])
  {
    match Destination(img, args, env)
    case None => Crash(vol)
    case Some(target) =>
      var v := EnsureDirectory(vol, DestinationDirectory(img, args, env).value).0;
      match env.copy(v, img.path, target, args.overwrite)
      case Copied => Processed(v.(files := v.files[target := img.path]), false)
      case IOFailure => Processed(v, true)
      case Fault => Crash(v)
  }

  /** `ds` are further duplicates found before the rest of a pass ran. */
  function Prepend(ds: seq<Image>, r: PassResult): PassResult
  {
    match r
    case Finished(v, rest) => Finished(v, ds + rest)
    case Crashed(v) => Crashed(v)
  }

  /** What a finished pass over `queue` from `vol` accounts for, given the
      volume `after` it leaves and its duplicates `ds`: no file disappears;
      the duplicates are an order-preserving subsequence of the queue; every
      image had a destination, its directory exists, and it is a duplicate
      or its destination file exists. */
  ghost predicate Accounted(queue: seq<Image>, args: PassArgs, env: Env, vol: Volume, after: Volume, ds: seq<Image>)
  {
    && vol.files.Keys <= after.files.Keys
    && Sequences.IsSubsequence(ds, queue)
    && forall k :: 0 <= k < |queue| ==>
         && Destination(queue[k], args, env).Some?
         && DestinationDirectory(queue[k], args, env).value in after.dirs
         && (queue[k] in ds || Destination(queue[k], args, env).value in after.files)
  }

  /** The whole pass over `queue`, image by image in queue order. */
  function Pass(queue: seq<Image>, args: PassArgs, env: Env, vol: Volume): (r: PassResult)
    ensures vol.dirs <= r.vol.dirs
    ensures r.Finished? ==> Accounted(queue, args, env, vol, r.vol, r.duplicates)
    decreases |queue|
  {
    if |queue| == 0 then Finished(vol, [])
    else
      var img := queue[0];
      match Process(img, args, env, vol)
      case Crash(v) => Crashed(v)
      case Processed(v, duplicate) =>
        var rest := Pass(queue[1..], args, env, v);
        if rest.Crashed? then rest
        else
          var ds := if duplicate then [img] + rest.duplicates else rest.duplicates;
          AccountedStep(img, queue[1..], args, env, vol, rest.vol, rest.duplicates);
          assert [img] + queue[1..] == queue;
          Finished(rest.vol, ds)
  }

  /** One processed image in front of an accounted rest of the pass keeps
      the pass accounted. */
  lemma AccountedStep(img: Image, tail: seq<Image>, args: PassArgs, env: Env, vol: Volume, after: Volume, ds: seq<Image>)
    requires Process(img, args, env, vol).Processed?
    requires Process(img, args, env, vol).vol.dirs <= after.dirs
    requires Accounted(tail, args, env, Process(img, args, env, vol).vol, after, ds)
    ensures var step := Process(img, args, env, vol);
            Accounted([img] + tail, args, env, vol, after, if step.duplicate then [img] + ds else ds)
  {
    var step := Process(img, args, env, vol);
    var queue := [img] + tail;
    var all := if step.duplicate then [img] + ds else ds;
    if step.duplicate {
      Sequences.SubsequenceKeep(ds, img, tail);
    } else {
      Sequences.SubsequenceSkip(ds, img, tail);
    }
    forall k | 0 <= k < |queue|
      ensures && Destination(queue[k], args, env).Some?
              && DestinationDirectory(queue[k], args, env).value in after.dirs
              && (queue[k] in all || Destination(queue[k], args, env).value in after.files)
    {
      if k > 0 {
        assert queue[k] == tail[k - 1];
      }
    }
  }

  /** `CopyImages`: the do-while loop that dequeues until the queue is empty.
      The loop runs its body before testing, so the queue must not start
      empty (`Dequeue` would throw). */
  method CopyImages(images: seq<Image>, args: PassArgs, env: Env, vol: Volume) returns (r: PassResult)
    requires |images| > 0
    ensures r == Pass(images, args, env, vol)
    ensures r.Finished? ==> |r.duplicates| <= |images|
  {
    var queue := images;
    var v := vol;
    var duplicates: seq<Image> := [];
    while true
      invariant |queue| > 0
      invariant Pass(images, args, env, vol) == Prepend(duplicates, Pass(queue, args, env, v))
      decreases |queue|
    {
      var image := queue[0];
      var step := Process(image, args, env, v);
      PassStep(queue, args, env, v);
      queue := queue[1..];
      if step.Crash? {
        return Crashed(step.vol);
      }
      v := step.vol;
      var found := if step.duplicate then [image] else [];
      PrependTwice(duplicates, found, Pass(queue, args, env, v));
      duplicates := duplicates + found;
      if |queue| == 0 {
        assert Pass(queue, args, env, v) == Finished(v, []);
        assert duplicates + [] == duplicates;
        r := Finished(v, duplicates);
        Sequences.SubsequenceNoLonger(r.duplicates, images);
        return;
      }
    }
  }

  /** The pass unfolded by one image. */
  lemma PassStep(queue: seq<Image>, args: PassArgs, env: Env, vol: Volume)
    requires |queue| > 0
    ensures var step := Process(queue[0], args, env, vol);
            && (step.Crash? ==> Pass(queue, args, env, vol) == Crashed(step.vol))
            && (step.Processed? ==>
                  Pass(queue, args, env, vol)
                  == Prepend(if step.duplicate then [queue[0]] else [], Pass(queue[1..], args, env, step.vol)))
  {
  }

  lemma PrependTwice(a: seq<Image>, b: seq<Image>, r: PassResult)
    ensures Prepend(a, Prepend(b, r)) == Prepend(a + b, r)
  {
  }

  /** The volume a pass works on before its `k`-th step: the starting volume,
      then the one each step leaves behind. */
  function VolumeBefore(s: seq<StepResult>, vol: Volume, k: nat): Volume
    requires k <= |s|
  {
    if k == 0 then vol else s[k - 1].vol
  }

  /** The steps of a pass, one per image in queue order, up to and including
      the first crash. */
  function Steps(queue: seq<Image>, args: PassArgs, env: Env, vol: Volume): (s: seq<StepResult>)
    ensures |s| <= |queue|
    ensures |s| < |queue| ==> |s| > 0 && s[|s| - 1].Crash?
    ensures forall k :: 0 <= k < |s| - 1 ==> s[k].Processed?
    decreases |queue|
  {
    if |queue| == 0 then []
    else
      var step := Process(queue[0], args, env, vol);
      if step.Crash? then [step] else [step] + Steps(queue[1..], args, env, step.vol)
  }

  /** The trace of a pass: its `k`-th step is `Process` of the `k`-th image
      on the volume the steps before it left. */
  lemma {:induction false} StepsTrace(queue: seq<Image>, args: PassArgs, env: Env, vol: Volume, k: nat)
    requires k < |Steps(queue, args, env, vol)|
    ensures Steps(queue, args, env, vol)[k]
            == Process(queue[k], args, env, VolumeBefore(Steps(queue, args, env, vol), vol, k))
    decreases |queue|
  {
    if k > 0 {
      var step := Process(queue[0], args, env, vol);
      var rest := Steps(queue[1..], args, env, step.vol);
      var s := Steps(queue, args, env, vol);
      assert s == [step] + rest;
      StepsTrace(queue[1..], args, env, step.vol, k - 1);
      assert queue[1..][k - 1] == queue[k];
      assert VolumeBefore(rest, step.vol, k - 1) == VolumeBefore(s, vol, k);
    }
  }

  /** The images whose step found a duplicate, in queue order. */
  function Flagged(queue: seq<Image>, s: seq<StepResult>): seq<Image>
    requires |s| <= |queue|
  {
    if |s| == 0 then []
    else (if s[0].Processed? && s[0].duplicate then [queue[0]] else []) + Flagged(queue[1..], s[1..])
  }

  /** The steps after a processed first image are the steps of the rest. */
  lemma StepsUnfold(queue: seq<Image>, args: PassArgs, env: Env, vol: Volume)
    requires |queue| > 0 && Process(queue[0], args, env, vol).Processed?
    ensures var step := Process(queue[0], args, env, vol);
            Steps(queue, args, env, vol) == [step] + Steps(queue[1..], args, env, step.vol)
  {
  }

  /** A pass is its steps: it crashes iff its last step crashed, it leaves the
      volume of its last step, and its duplicates are exactly the images whose
      step found one, in queue order. */
  lemma {:induction false} PassFollowsSteps(queue: seq<Image>, args: PassArgs, env: Env, vol: Volume)
    ensures var r := Pass(queue, args, env, vol);
            var s := Steps(queue, args, env, vol);
            && (r.Crashed? <==> |s| > 0 && s[|s| - 1].Crash?)
            && r.vol == VolumeBefore(s, vol, |s|)
            && (r.Finished? ==> |s| == |queue| && r.duplicates == Flagged(queue, s))
    decreases |queue|
  {
    if |queue| != 0 {
      var step := Process(queue[0], args, env, vol);
      PassStep(queue, args, env, vol);
      if step.Processed? {
        var rest := Steps(queue[1..], args, env, step.vol);
        var s := Steps(queue, args, env, vol);
        PassFollowsSteps(queue[1..], args, env, step.vol);
        StepsUnfold(queue, args, env, vol);
        assert s[1..] == rest;
        if |rest| > 0 {
          assert s[|s| - 1] == rest[|rest| - 1];
        }
      }
    }
  }

  /** What a finished pass did with its `k`-th image: the step found a
      duplicate exactly when `File.Copy` raised an I/O error on the volume as
      it stood at that image's turn (with the directory ensured); otherwise
      the copy recorded the image's own source at its destination and
      touched no other file. */
  lemma PassOutcome(queue: seq<Image>, args: PassArgs, env: Env, vol: Volume, k: nat)
    requires Pass(queue, args, env, vol).Finished? && k < |queue|
    ensures k < |Steps(queue, args, env, vol)| && Steps(queue, args, env, vol)[k].Processed?
    ensures Destination(queue[k], args, env).Some?
    ensures var s := Steps(queue, args, env, vol);
            var before := VolumeBefore(s, vol, k);
            var img := queue[k];
            var target := Destination(img, args, env).value;
            var ensured := EnsureDirectory(before, DestinationDirectory(img, args, env).value).0;
            && (s[k].duplicate <==> env.copy(ensured, img.path, target, args.overwrite) == IOFailure)
            && (!s[k].duplicate ==> s[k].vol.files == before.files[target := img.path])
  {
    FinishedSteps(queue, args, env, vol);
    var s := Steps(queue, args, env, vol);
    StepsTrace(queue, args, env, vol, k);
    StepOutcome(queue[k], args, env, VolumeBefore(s, vol, k), s[k]);
  }

  /** Every step of a finished pass was processed, and every image had a
      destination. */
  lemma FinishedSteps(queue: seq<Image>, args: PassArgs, env: Env, vol: Volume)
    requires Pass(queue, args, env, vol).Finished?
    ensures |Steps(queue, args, env, vol)| == |queue|
    ensures forall k :: 0 <= k < |queue| ==>
      Steps(queue, args, env, vol)[k].Processed? && Destination(queue[k], args, env).Some?
  {
    PassFollowsSteps(queue, args, env, vol);
    var s := Steps(queue, args, env, vol);
    assert |s| == |queue|;
    forall k | 0 <= k < |queue|
      ensures s[k].Processed? && Destination(queue[k], args, env).Some?
    {
      if k == |s| - 1 {
        assert !s[k].Crash?;
      }
      StepsTrace(queue, args, env, vol, k);
    }
  }

  lemma StepOutcome(img: Image, args: PassArgs, env: Env, before: Volume, r: StepResult)
    requires Destination(img, args, env).Some?
    requires r == Process(img, args, env, before) && r.Processed?
    ensures var target := Destination(img, args, env).value;
            var ensured := EnsureDirectory(before, DestinationDirectory(img, args, env).value).0;
            && (r.duplicate <==> env.copy(ensured, img.path, target, args.overwrite) == IOFailure)
            && (!r.duplicate ==> r.vol.files == before.files[target := img.path])
  {
  }

  /** The directory part of a path: everything up to and including its last
      backslash, or nothing when it has none. */
  function ParentDirectory(path: string): (p: string)
    ensures p <= path
    ensures '\\' !in path[|p|..]
    ensures p == [] || p[|p| - 1] == '\\'
  {
    if '\\' in path then path[..Text.LastIndexOf(path, '\\') + 1] else []
  }

  /** `File.Copy` on a volume where the only I/O errors are the two the
      destination causes: a missing target directory (a
      `DirectoryNotFoundException`) and, without overwriting, an existing
      target file. */
  function IdealCopy(v: Volume, source: string, target: string, overwrite: bool): CopyOutcome
  {
    if ParentDirectory(target) !in v.dirs then IOFailure
    else if target in v.files && !overwrite then IOFailure
    else Copied
  }

  ghost predicate IdealFileCopy(env: Env)
  {
    forall v, s, t, o :: env.copy(v, s, t, o) == IdealCopy(v, s, t, o)
  }

  /** The image's destination is a file directly inside the directory the
      pass creates for it. */
  predicate LandsInDirectory(img: Image, args: PassArgs, env: Env)
  {
    && Destination(img, args, env).Some?
    && ParentDirectory(Destination(img, args, env).value) == DestinationDirectory(img, args, env).value
  }

  /** .NET's rule for `File.Copy(source, target, false)`: it never succeeds
      when the target exists. Any other outcome is left open. */
  ghost predicate NeverReplaces(env: Env)
  {
    forall v: Volume, s: string, t: string :: t in v.files ==> env.copy(v, s, t, false) != Copied
  }

  /** The idealised `File.Copy` keeps that rule. */
  lemma IdealCopyNeverReplaces(env: Env)
    requires IdealFileCopy(env)
    ensures NeverReplaces(env)
  {
  }

  /** .NET's rule that `File.Copy` into a missing directory raises a
      `DirectoryNotFoundException`, which is an `IOException`. Any other
      outcome is left open. */
  ghost predicate MissingDirectoryFails(env: Env)
  {
    forall v: Volume, s: string, t: string, o: bool :: ParentDirectory(t) !in v.dirs ==> env.copy(v, s, t, o) == IOFailure
  }

  /** The idealised `File.Copy` keeps that rule too. */
  lemma IdealCopyMissingDirectoryFails(env: Env)
    requires IdealFileCopy(env)
    ensures MissingDirectoryFails(env)
  {
  }

  /** Without overwriting, a pass never replaces a file that already exists:
      in particular a renamed copy whose name is taken is left a duplicate. */
  lemma {:induction false} NoOverwriteKeepsFiles(queue: seq<Image>, args: PassArgs, env: Env, vol: Volume)
    requires NeverReplaces(env) && !args.overwrite
    ensures var r := Pass(queue, args, env, vol);
            forall p :: p in vol.files ==> p in r.vol.files && r.vol.files[p] == vol.files[p]
    decreases |queue|
  {
    if |queue| != 0 {
      var img := queue[0];
      var step := Process(img, args, env, vol);
      PassStep(queue, args, env, vol);
      if step.Processed? {
        var target := Destination(img, args, env).value;
        var before := EnsureDirectory(vol, DestinationDirectory(img, args, env).value).0;
        assert before.files == vol.files;
        if !step.duplicate {
          assert env.copy(before, img.path, target, args.overwrite) == Copied;
          assert target !in vol.files;
        }
        assert forall p :: p in vol.files ==> p in step.vol.files && step.vol.files[p] == vol.files[p];
        NoOverwriteKeepsFiles(queue[1..], args, env, step.vol);
      }
    }
  }

  /** An overwriting pass without a suffix, whose images all land in the
      directories it creates for them, finds no duplicates. */
  lemma {:induction false} OverwriteLeavesNoDuplicates(queue: seq<Image>, args: PassArgs, env: Env, vol: Volume)
    requires IdealFileCopy(env) && args.overwrite && args.suffix.None?
    requires forall k :: 0 <= k < |queue| ==> LandsInDirectory(queue[k], args, env)
    ensures Pass(queue, args, env, vol).Finished?
    ensures Pass(queue, args, env, vol).duplicates == []
    decreases |queue|
  {
    if |queue| != 0 {
      assert LandsInDirectory(queue[0], args, env);
      OverwriteStep(queue[0], args, env, vol);
      var step := Process(queue[0], args, env, vol);
      PassStep(queue, args, env, vol);
      var tail := queue[1..];
      assert forall k :: 0 <= k < |tail| ==> tail[k] == queue[k + 1];
      OverwriteLeavesNoDuplicates(tail, args, env, step.vol);
    }
  }

  /** An overwriting copy into the directory the pass creates always succeeds. */
  lemma OverwriteStep(img: Image, args: PassArgs, env: Env, vol: Volume)
    ensures IdealFileCopy(env) && args.overwrite && LandsInDirectory(img, args, env) ==>
            Process(img, args, env, vol).Processed? && !Process(img, args, env, vol).duplicate
  {
  }

  /** A copy whose target lies neither in the directory the pass creates for
      it, nor in a directory above that one, nor in one that already exists
      fails with an I/O error, and the image becomes a duplicate with nothing
      written. */
  lemma MisplacedTargetIsDuplicate(img: Image, args: PassArgs, env: Env, vol: Volume)
    requires Destination(img, args, env).Some?
    ensures var d := DestinationDirectory(img, args, env).value;
            MissingDirectoryFails(env) && ParentDirectory(Destination(img, args, env).value) !in vol.dirs + {d} + Ancestors(d) ==>
            Process(img, args, env, vol) == Processed(EnsureDirectory(vol, d).0, true)
  {
  }

  /** Without a suffix, and with a file name that holds no backslash (as
      `Path.GetFileName` returns), the destination lies in the directory the
      pass creates or, when the structure string does not end in a backslash,
      in a directory above it: the file name is appended with no separator. */
  lemma DestinationInCreatedTree(img: Image, args: PassArgs, env: Env)
    requires args.suffix.None? && DestinationDirectory(img, args, env).Some?
    requires '\\' !in env.fileName(img.path)
    ensures Destination(img, args, env).Some?
    ensures var d := DestinationDirectory(img, args, env).value;
            ParentDirectory(Destination(img, args, env).value) in Ancestors(d) + {d}
  {
    var d := DestinationDirectory(img, args, env).value;
    ParentOfAppended(d, env.fileName(img.path));
  }

  /** Appending a separator-free name to a path that holds a backslash puts
      the result in that path, when it ends in a backslash, or in one of the
      directories above it. */
  lemma ParentOfAppended(d: string, name: string)
    requires '\\' in d && '\\' !in name
    ensures ParentDirectory(d + name) in Ancestors(d) + {d}
  {
    var target := d + name;
    var j := Text.LastIndexOf(d, '\\');
    assert ParentDirectory(target) == d[..j + 1] by {
      assert target[j + 1..] == d[j + 1..] + name;
      Text.LastIndexOfAt(target, '\\', j);
    }
    if j < |d| - 1 {
      AncestorsExact(d, d[..j + 1]);
    }
  }

  /** On a closed volume, a copy whose target lies in the directory the pass
      creates or in a directory above it succeeds, unless the target exists
      and overwriting is off: the image's source is recorded at its target. */
  lemma CreatedTreeTargetCopies(img: Image, args: PassArgs, env: Env, vol: Volume)
    requires Destination(img, args, env).Some?
    ensures var d := DestinationDirectory(img, args, env).value;
            var target := Destination(img, args, env).value;
            && IdealFileCopy(env) && Closed(vol) && ParentDirectory(target) in Ancestors(d) + {d}
            && (args.overwrite || target !in vol.files) ==>
            var r := Process(img, args, env, vol);
            && r.Processed? && !r.duplicate
            && r.vol.files == vol.files[target := img.path]
  {
    if Closed(vol) {
      EnsureDirectoryKeepsClosed(vol, DestinationDirectory(img, args, env).value);
    }
  }

  /** Every image of the queue lands in its own directory under its own
      destination, and none of those destinations is taken yet. */
  ghost predicate FreshDestinations(queue: seq<Image>, args: PassArgs, env: Env, vol: Volume)
  {
    && (forall k :: 0 <= k < |queue| ==> LandsInDirectory(queue[k], args, env))
    && (forall k :: 0 <= k < |queue| ==> Destination(queue[k], args, env).value !in vol.files)
    && (forall i, j :: 0 <= i < j < |queue| ==>
          Destination(queue[i], args, env).value != Destination(queue[j], args, env).value)
  }

  /** Copying into an empty destination: when every image lands in the
      directory created for it, no two images share a destination and none is
      taken, every image is copied from its own source and there are no
      duplicates. */
  lemma {:induction false} FreshPassCopiesAll(queue: seq<Image>, args: PassArgs, env: Env, vol: Volume)
    requires IdealFileCopy(env) && !args.overwrite
    requires FreshDestinations(queue, args, env, vol)
    ensures Pass(queue, args, env, vol).Finished?
    ensures Pass(queue, args, env, vol).duplicates == []
    ensures forall k :: 0 <= k < |queue| ==>
      Pass(queue, args, env, vol).vol.files[Destination(queue[k], args, env).value] == queue[k].path
    decreases |queue|
  {
    if |queue| != 0 {
      var img := queue[0];
      assert LandsInDirectory(img, args, env);
      var target := Destination(img, args, env).value;
      var step := Process(img, args, env, vol);
      assert step.Processed? && !step.duplicate;
      assert step.vol.files == vol.files[target := img.path];
      var tail := queue[1..];
      forall k | 0 <= k < |tail|
        ensures LandsInDirectory(tail[k], args, env)
        ensures Destination(tail[k], args, env).value !in step.vol.files
      {
        assert tail[k] == queue[k + 1];
      }
      assert FreshDestinations(tail, args, env, step.vol) by {
        forall i, j | 0 <= i < j < |tail|
          ensures Destination(tail[i], args, env).value != Destination(tail[j], args, env).value
        {
          assert tail[i] == queue[i + 1] && tail[j] == queue[j + 1];
        }
      }
      FreshPassCopiesAll(tail, args, env, step.vol);
      IdealCopyNeverReplaces(env);
      NoOverwriteKeepsFiles(tail, args, env, step.vol);
      var r := Pass(queue, args, env, vol);
      forall k | 0 <= k < |queue|
        ensures r.vol.files[Destination(queue[k], args, env).value] == queue[k].path
      {
        if k > 0 {
          assert queue[k] == tail[k - 1];
        }
      }
    }
  }
}

=== FILE: distribute_command.dfy ===
/** The driver of DistributeCommand.cs (`Execute`): index, run a first pass
    that neither overwrites nor renames, stop when it leaves no duplicates,
    otherwise act on the user's choice with at most one second pass over
    exactly the duplicates. */
module DistributeCommand {

  import opened Wrappers
  import opened Indexer
  import opened CopyPass
  import CommandOptions

  /** The three answers of the duplicate prompt: "Skip", "Overwrite" and
      "Add \"_copy\" to filename" (the `default` branch of the switch). */
  datatype Choice = Skip | Overwrite | AddCopySuffix

  /** One call of `CopyImages`: its queue and its two optional arguments. */
  datatype PassCall = PassCall(queue: seq<Image>, overwrite: bool, suffix: Option<string>)

  /** How a run ends: `Execute` returns an exit code, or an exception it does
      not catch ends the command. */
  datatype Ending = Exited(code: int) | Aborted

  /** The outcome of a run: how it ended, the destination volume it left and
      the log of the passes it ran. */
  datatype Run = Run(ending: Ending, vol: Volume, calls: seq<PassCall>)

  /** What one run depends on: the validated options, the tree found at
      `options.from` (`Execute` requires `source.path == options.from`), the
      metadata reader, the libraries of the copy pass and the answer the user
      would give to the prompt. */
  datatype Config = Config(
    options: CommandOptions.Options,
    source: Dir,
    exif: Exif,
    env: Env,
    choice: Choice)

  const CopySuffix := "_copy"

  function Args(cfg: Config, call: PassCall): PassArgs
  {
    PassArgs(cfg.options.to, cfg.options.structure, call.overwrite, call.suffix)
  }

  /** The images `Execute` indexes: the walk from `options.from` at depth 0,
      when it returns (see `IndexingAborts`). */
  function Indexed(cfg: Config): seq<Image>
  {
    Walk(cfg.source, 0, cfg.options.depth, cfg.exif)
  }

  /** Indexing ends the command: the reader throws, on a file the walk reads,
      an exception the walk does not catch. */
  predicate IndexingAborts(cfg: Config)
  {
    WalkAborts(cfg.source, cfg.options.depth, cfg.exif)
  }

  /** The second pass each answer asks for, if any. */
  function SecondCall(choice: Choice, duplicates: seq<Image>): Option<PassCall>
  {
    match choice
    case Skip => None
    case Overwrite => Some(PassCall(duplicates, true, None))
    case AddCopySuffix => Some(PassCall(duplicates, false, Some(CopySuffix)))
  }

  /** The outcome of a whole run from `vol`. */
  ghost predicate Done(cfg: Config, vol: Volume, m: Run)
  {
    var images := Indexed(cfg);
    var first := Pass(images, Args(cfg, PassCall(images, false, None)), cfg.env, vol);
    && (m.ending.Exited? ==> m.ending.code == 0)
    && (IndexingAborts(cfg) ==> m == Run(Aborted, vol, []))
    && (!IndexingAborts(cfg) && |images| == 0 ==> m == Run(Exited(0), vol, []))
    && (!IndexingAborts(cfg) && |images| > 0 && first.Crashed? ==> m == Run(Aborted, first.vol, [PassCall(images, false, None)]))
    && (!IndexingAborts(cfg) && |images| > 0 && first.Finished? && (|first.duplicates| == 0 || cfg.choice == Skip) ==>
          m == Run(Exited(0), first.vol, [PassCall(images, false, None)]))
    && (!IndexingAborts(cfg) && |images| > 0 && first.Finished? && |first.duplicates| > 0 && cfg.choice != Skip ==>
          var call := SecondCall(cfg.choice, first.duplicates).value;
          var second := Pass(call.queue, Args(cfg, call), cfg.env, first.vol);
          && m.calls == [PassCall(images, false, None), call]
          && m.vol == second.vol
          && m.ending == (if second.Finished? then Exited(0) else Aborted))
  }

  /** `Execute`: index; stop on an empty index; run the first pass; stop when
      it leaves no duplicates; otherwise run the pass the answer selects, if
      any. It returns 0 each time, unless indexing or a pass aborts with an
      exception it does not catch. */
  method Execute(cfg: Config, vol: Volume) returns (m: Run)
    requires cfg.source.path == cfg.options.from
    ensures m.ending.Exited? ==> m.ending.code == 0
    ensures |m.calls| <= 2
    ensures forall k :: 0 <= k < |m.calls| ==> |m.calls[k].queue| > 0
    ensures IndexingAborts(cfg) ==> m == Run(Aborted, vol, [])
    ensures m.calls == [] <==> IndexingAborts(cfg) || |Indexed(cfg)| == 0
    ensures |m.calls| > 0 ==> m.calls[0] == PassCall(Indexed(cfg), false, None)
    ensures |m.calls| == 2 ==>
      var first := Pass(Indexed(cfg), Args(cfg, m.calls[0]), cfg.env, vol);
      && first.Finished? && m.calls[1].queue == first.duplicates
      && cfg.choice != Skip
      && (cfg.choice == Overwrite ==> m.calls[1] == PassCall(first.duplicates, true, None))
      && (cfg.choice == AddCopySuffix ==> m.calls[1] == PassCall(first.duplicates, false, Some("_copy")))
    ensures Done(cfg, vol, m)
  {
    var images := Indexed(cfg);
    var first := PassCall(images, false, None);
    if IndexingAborts(cfg) {
      m := Run(Aborted, vol, []);
    } else if |images| == 0 {
      m := Run(Exited(0), vol, []);
    } else {
      var r := CopyImages(images, Args(cfg, first), cfg.env, vol);
      if r.Crashed? {
        m := Run(Aborted, r.vol, [first]);
      } else if |r.duplicates| == 0 {
        m := Run(Exited(0), r.vol, [first]);
      } else {
        match SecondCall(cfg.choice, r.duplicates) {
          case None =>
            m := Run(Exited(0), r.vol, [first]);
          case Some(call) =>
            var second := CopyImages(call.queue, Args(cfg, call), cfg.env, r.vol);
            m := Run(if second.Crashed? then Aborted else Exited(0), second.vol, [first, call]);
        }
      }
    }
    DoneSummary(cfg, vol, m);
  }

  /** What every run has in common: it exits with 0 when it exits, makes at most two non-empty pass calls, the
      first over the indexed images with the first-pass settings and the
      second over exactly the first pass's duplicates with the settings the
      answer selects. */
  lemma DoneSummary(cfg: Config, vol: Volume, m: Run)
    requires Done(cfg, vol, m)
    ensures m.ending.Exited? ==> m.ending.code == 0
    ensures |m.calls| <= 2
    ensures forall k :: 0 <= k < |m.calls| ==> |m.calls[k].queue| > 0
    ensures IndexingAborts(cfg) ==> m == Run(Aborted, vol, [])
    ensures m.calls == [] <==> IndexingAborts(cfg) || |Indexed(cfg)| == 0
    ensures |m.calls| > 0 ==> m.calls[0] == PassCall(Indexed(cfg), false, None)
    ensures |m.calls| == 2 ==>
      var first := Pass(Indexed(cfg), Args(cfg, m.calls[0]), cfg.env, vol);
      && first.Finished? && m.calls[1].queue == first.duplicates
      && cfg.choice != Skip
      && (cfg.choice == Overwrite ==> m.calls[1] == PassCall(first.duplicates, true, None))
      && (cfg.choice == AddCopySuffix ==> m.calls[1] == PassCall(first.duplicates, false, Some("_copy")))
  {
  }

  /** Distributing into a destination where no indexed image collides with an
      existing file or with another image takes one pass: every image is
      copied from its own source and the command exits with 0. */
  lemma CollisionFreeRunIsOnePass(cfg: Config, vol: Volume, m: Run)
    requires !IndexingAborts(cfg) && IdealFileCopy(cfg.env)
    requires FreshDestinations(Indexed(cfg), Args(cfg, PassCall(Indexed(cfg), false, None)), cfg.env, vol)
    ensures Done(cfg, vol, m) ==> m.ending == Exited(0) && |m.calls| <= 1
    ensures Done(cfg, vol, m) ==> forall k :: 0 <= k < |Indexed(cfg)| ==>
      var args := Args(cfg, PassCall(Indexed(cfg), false, None));
      var target := Destination(Indexed(cfg)[k], args, cfg.env).value;
      target in m.vol.files && m.vol.files[target] == Indexed(cfg)[k].path
  {
    var images := Indexed(cfg);
    FreshPassCopiesAll(images, Args(cfg, PassCall(images, false, None)), cfg.env, vol);
  }
}

=== FILE: file_system_factory.dfy ===
/** Backend selection of FS/FileSystemFactory.cs (`From`): on Windows, a
    location whose text before the first ':' is longer than one character
    names a media device; everything else is the plain file system. */
module FileSystemFactory {

  import opened Wrappers
  import Text
  import MediaDevice

  datatype Kind = NormalKind | DeviceKind(drive: string)

  /** The backend `From` returns: `Normal`, or a `MediaDevice`. */
  datatype FileSystem = Normal | Media(fs: MediaDevice.MediaFs)

  datatype FactoryError = InvalidPath(path: string) | DeviceFailed(error: MediaDevice.DeviceError)

  /** The path classification works on: a path without ':' is first passed
      through `Path.GetFullPath` (`fullPath`, `None` where it throws). */
  function Normalise(path: string, fullPath: string -> Option<string>): Option<string>
  {
    if ':' in path then Some(path) else fullPath(path)
  }

  /** Which backend `From` builds for `path`; `windows` is
      `RuntimeInformation.IsOSPlatform(OSPlatform.Windows)`. */
  function Classify(path: string, windows: bool, fullPath: string -> Option<string>): (r: Result<Kind, FactoryError>)
    ensures r.Failure? <==> ':' !in path && fullPath(path).None?
    ensures r.Success? && !windows ==> r.value == NormalKind
    ensures r.Success? && windows ==>
      var p := Normalise(path, fullPath).value;
      var drive := p[..Text.IndexOf(p, ':')];
      && (r.value.DeviceKind? <==> |drive| > 1)
      && (r.value.DeviceKind? ==> r.value.drive == drive)
    ensures r.Success? && r.value.DeviceKind? ==> windows && ':' !in r.value.drive && |r.value.drive| > 1
  {
    match Normalise(path, fullPath)
    case None => Failure(InvalidPath(path))
    case Some(p) =>
      if windows then
        var drive := Text.Split(p, ':')[0];
        if |drive| > 1 then Success(DeviceKind(drive)) else Success(NormalKind)
      else Success(NormalKind)
  }

  /** `From`: classify, then construct the backend; constructing a media
      device can fail and can change the device registry. */
  function From(path: string, windows: bool, fullPath: string -> Option<string>,
                reg: MediaDevice.Registry, attached: seq<MediaDevice.Device>): (r: (Result<FileSystem, FactoryError>, MediaDevice.Registry))
    ensures Classify(path, windows, fullPath).Failure? ==> r.0.Failure? && r.1 == reg
    ensures Classify(path, windows, fullPath) == Success(NormalKind) ==> r == (Success(Normal), reg)
    ensures Classify(path, windows, fullPath).Success? && Classify(path, windows, fullPath).value.DeviceKind? ==>
      var made := MediaDevice.Open(Classify(path, windows, fullPath).value.drive, reg, attached);
      && r.1 == made.registry
      && (made.fs.Success? ==> r.0 == Success(Media(made.fs.value)))
      && (made.fs.Failure? ==> r.0 == Failure(DeviceFailed(made.fs.error)))
    ensures r.0.Success? && r.0.value.Media? ==> windows
  {
    match Classify(path, windows, fullPath)
    case Failure(e) => (Failure(e), reg)
    case Success(NormalKind) => (Success(Normal), reg)
    case Success(DeviceKind(drive)) =>
      var made := MediaDevice.Open(drive, reg, attached);
      match made.fs
      case Success(fs) => (Success(Media(fs)), made.registry)
      case Failure(e) => (Failure(DeviceFailed(e)), made.registry)
  }

  /** A drive letter (`C:...`) selects the plain file system. */
  lemma DriveLetterIsNormal(letter: char, rest: string, windows: bool, fullPath: string -> Option<string>)
    requires letter != ':'
    ensures Classify([letter, ':'] + rest, windows, fullPath) == Success(NormalKind)
  {
    var p := [letter, ':'] + rest;
    assert p[0] == letter && p[1] == ':';
    assert ':' in p;
    assert Text.IndexOf(p, ':') <= 1;
  }

  /** A device-qualified path `name:rest` selects the device `name` on Windows. */
  lemma QualifiedPathSelectsDevice(name: string, rest: string, fullPath: string -> Option<string>)
    requires ':' !in name && |name| > 1
    ensures Classify(name + ":" + rest, true, fullPath) == Success(DeviceKind(name))
  {
    var p := name + ":" + rest;
    assert p == name + [':'] + rest;
    Text.PrefixBeforeSeparator(name, ':', rest);
    assert p[..|name|] == name;
  }

  /** On any other platform the result is the plain file system, unless
      normalising a colon-free path throws. */
  lemma OtherPlatformsAreNormal(path: string, fullPath: string -> Option<string>,
                                reg: MediaDevice.Registry, attached: seq<MediaDevice.Device>)
    requires ':' in path || fullPath(path).Some?
    ensures From(path, false, fullPath, reg, attached) == (Success(Normal), reg)
  {
  }

  /** The device backend built for `name:rest` hands `rest` to the device:
      the drive the factory cuts off is exactly the prefix the backend trims. */
  lemma DevicePathReachesDeviceTrimmed(name: string, rest: string, fullPath: string -> Option<string>,
                                       reg: MediaDevice.Registry, attached: seq<MediaDevice.Device>)
    requires ':' !in name && |name| > 1
    requires From(name + ":" + rest, true, fullPath, reg, attached).0.Success?
    ensures var fs := From(name + ":" + rest, true, fullPath, reg, attached).0.value;
            && fs.Media?
            && fs.fs.deviceName == name
            && MediaDevice.TrimDeviceName(fs.fs.deviceName, name + ":" + rest) == Some(rest)
  {
    QualifiedPathSelectsDevice(name, rest, fullPath);
    MediaDevice.TrimQualified(name, rest);
  }
}

=== FILE: indexer.dfy ===
/** The depth-bounded image indexer of DistributeCommand.cs
    (`GetImagePaths`): a pre-order walk over the source tree that keeps every
    file whose EXIF sub-IFD directory carries a parsable original capture
    date. */
module Indexer {

  import Sequences

  /** A .NET `DateTime`, identified by its tick count. */
  datatype DateTime = DateTime(ticks: int)

  /** One indexed image: its full path and its original capture date. */
  datatype Image = Image(path: string, taken: DateTime)

  /** A directory as the file system lists it: its path, the full paths of its
      files and its subdirectories, each in listing order. */
  datatype Dir = Dir(path: string, files: seq<string>, subdirs: seq<Dir>)

  /** What reading a file's metadata yields: the reader throws an
      `ImageProcessingException` (caught: the file is skipped), throws any
      other exception such as an `IOException` or an
      `UnauthorizedAccessException` (not caught: the command ends), finds no
      `ExifSubIfdDirectory`, finds one without a parsable `DateTimeOriginal`
      tag, or finds the capture date. */
  datatype ExifRead = Throws | Aborts | NoSubIfd | NoDateTimeOriginal | Taken(t: DateTime)

  /** The metadata reader, as a pure function of the file's path. */
  type Exif = string -> ExifRead

  /** The images of one directory's files, in listing order. */
  function Qualifying(files: seq<string>, exif: Exif): (r: seq<Image>)
    ensures |r| <= |files|
    ensures forall k :: 0 <= k < |r| ==> r[k].path in files && exif(r[k].path) == Taken(r[k].taken)
  {
    if |files| == 0 then []
    else
      var rest := Qualifying(files[1..], exif);
      match exif(files[0])
      case Taken(t) => [Image(files[0], t)] + rest
      case _ => rest
  }

  /** `GetImagePaths(dir.path, depth, maxDepth)`: the directory's own images,
      then, only when `depth < maxDepth`, those of each subdirectory one level
      deeper, in listing order. */
  function Walk(d: Dir, depth: nat, maxDepth: int, exif: Exif): (r: seq<Image>)
    ensures Qualifying(d.files, exif) <= r
    ensures depth >= maxDepth ==> r == Qualifying(d.files, exif)
    decreases d, 1
  {
    var own := Qualifying(d.files, exif);
    if |d.subdirs| == 0 then own
    else if depth < maxDepth then own + WalkAll(d.subdirs, depth + 1, maxDepth, exif)
    else own
  }

  /** The results of `Walk` on each directory of `ds`, concatenated in order. */
  function WalkAll(ds: seq<Dir>, depth: nat, maxDepth: int, exif: Exif): seq<Image>
    decreases ds, 0
  {
    if |ds| == 0 then []
    else Walk(ds[0], depth, maxDepth, exif) + WalkAll(ds[1..], depth, maxDepth, exif)
  }

  /** `x` is a directory exactly `k` levels below `root`. */
  ghost predicate DirAt(root: Dir, k: nat, x: Dir)
    decreases root
  {
    if k == 0 then x == root
    else exists i :: 0 <= i < |root.subdirs| && DirAt(root.subdirs[i], k - 1, x)
  }

  /** A directory `k` levels below a directory visited at `depth` is itself
      visited: the root always, a deeper one when every directory above it
      was at a depth below `maxDepth`. */
  predicate Visited(depth: nat, k: nat, maxDepth: int)
  {
    k == 0 || depth + k <= maxDepth
  }

  /** An image is in `Qualifying(files)` exactly when its path is one of the
      files and the reader yields its date. */
  lemma {:induction false} QualifyingExact(files: seq<string>, exif: Exif, img: Image)
    ensures img in Qualifying(files, exif) <==> img.path in files && exif(img.path) == Taken(img.taken)
    decreases |files|
  {
    if |files| != 0 {
      QualifyingExact(files[1..], exif, img);
      assert files == [files[0]] + files[1..];
    }
  }

  /** `Qualifying` keeps the listing order: its paths are a subsequence of the files. */
  lemma {:induction false} QualifyingOrdered(files: seq<string>, exif: Exif)
    ensures Sequences.IsSubsequence(Paths(Qualifying(files, exif)), files)
    decreases |files|
  {
    if |files| != 0 {
      QualifyingOrdered(files[1..], exif);
      var rest := Qualifying(files[1..], exif);
      assert files == [files[0]] + files[1..];
      match exif(files[0])
      case Taken(t) =>
        assert Paths([Image(files[0], t)] + rest) == [files[0]] + Paths(rest);
        Sequences.SubsequenceKeep(Paths(rest), files[0], files[1..]);
      case _ =>
        Sequences.SubsequenceSkip(Paths(rest), files[0], files[1..]);
    }
  }

  function Paths(images: seq<Image>): (r: seq<string>)
    ensures |r| == |images|
    ensures forall k :: 0 <= k < |r| ==> r[k] == images[k].path
  {
    if |images| == 0 then [] else [images[0].path] + Paths(images[1..])
  }

  /** Soundness: every indexed image is a file of a visited directory whose
      metadata yields exactly its date. */
  lemma {:induction false} WalkSound(d: Dir, depth: nat, maxDepth: int, exif: Exif, img: Image)
    requires img in Walk(d, depth, maxDepth, exif)
    ensures exif(img.path) == Taken(img.taken)
    ensures exists k: nat, x :: DirAt(d, k, x) && Visited(depth, k, maxDepth) && img.path in x.files
    decreases d, 1
  {
    var own := Qualifying(d.files, exif);
    if img in own {
      QualifyingExact(d.files, exif, img);
      assert DirAt(d, 0, d);
    } else {
      assert depth < maxDepth && |d.subdirs| > 0;
      WalkAllSound(d.subdirs, depth + 1, maxDepth, exif, img);
      var i, k: nat, x :| 0 <= i < |d.subdirs| && DirAt(d.subdirs[i], k, x)
        && Visited(depth + 1, k, maxDepth) && img.path in x.files;
      assert DirAt(d, k + 1, x);
    }
  }

  lemma {:induction false} WalkAllSound(ds: seq<Dir>, depth: nat, maxDepth: int, exif: Exif, img: Image)
    requires img in WalkAll(ds, depth, maxDepth, exif)
    requires 1 <= depth <= maxDepth
    ensures exif(img.path) == Taken(img.taken)
    ensures exists i, k: nat, x ::
              0 <= i < |ds| && DirAt(ds[i], k, x) && Visited(depth, k, maxDepth) && img.path in x.files
    decreases ds, 0
  {
    if img in Walk(ds[0], depth, maxDepth, exif) {
      WalkSound(ds[0], depth, maxDepth, exif, img);
      var k: nat, x :| DirAt(ds[0], k, x) && Visited(depth, k, maxDepth) && img.path in x.files;
      assert 0 <= 0 < |ds| && DirAt(ds[0], k, x);
    } else {
      WalkAllSound(ds[1..], depth, maxDepth, exif, img);
      var i, k: nat, x :| 0 <= i < |ds[1..]| && DirAt(ds[1..][i], k, x)
        && Visited(depth, k, maxDepth) && img.path in x.files;
      assert ds[1..][i] == ds[i + 1];
    }
  }

  /** Completeness: every file of a visited directory whose metadata yields a
      date is indexed with that date. */
  lemma {:induction false} WalkComplete(d: Dir, depth: nat, maxDepth: int, exif: Exif, k: nat, x: Dir, f: string, t: DateTime)
    requires DirAt(d, k, x) && Visited(depth, k, maxDepth)
    requires f in x.files && exif(f) == Taken(t)
    ensures Image(f, t) in Walk(d, depth, maxDepth, exif)
    decreases d
  {
    if k == 0 {
      QualifyingExact(d.files, exif, Image(f, t));
    } else {
      var i :| 0 <= i < |d.subdirs| && DirAt(d.subdirs[i], k - 1, x);
      assert depth < maxDepth;
      assert Visited(depth + 1, k - 1, maxDepth);
      WalkComplete(d.subdirs[i], depth + 1, maxDepth, exif, k - 1, x, f, t);
      WalkAllContains(d.subdirs, i, depth + 1, maxDepth, exif, Image(f, t));
      var all := WalkAll(d.subdirs, depth + 1, maxDepth, exif);
      assert Walk(d, depth, maxDepth, exif) == Qualifying(d.files, exif) + all;
    }
  }

  lemma {:induction false} WalkAllContains(ds: seq<Dir>, i: nat, depth: nat, maxDepth: int, exif: Exif, img: Image)
    requires i < |ds| && img in Walk(ds[i], depth, maxDepth, exif)
    ensures img in WalkAll(ds, depth, maxDepth, exif)
    decreases |ds|
  {
    var head := Walk(ds[0], depth, maxDepth, exif);
    var tail := WalkAll(ds[1..], depth, maxDepth, exif);
    assert WalkAll(ds, depth, maxDepth, exif) == head + tail;
    if i > 0 {
      assert ds[1..][i - 1] == ds[i];
      WalkAllContains(ds[1..], i - 1, depth, maxDepth, exif, img);
    }
  }

  /** The depth bound, stated from the root (depth 0) with a positive bound:
      the files of a directory `k` levels down are examined iff
      `k <= maxDepth`; deeper files are never indexed. */
  lemma DepthBound(root: Dir, maxDepth: nat, exif: Exif, img: Image)
    ensures img in Walk(root, 0, maxDepth, exif)
      <==> exif(img.path) == Taken(img.taken)
           && exists k: nat, x :: DirAt(root, k, x) && k <= maxDepth && img.path in x.files
  {
    if img in Walk(root, 0, maxDepth, exif) {
      WalkSound(root, 0, maxDepth, exif, img);
    }
    if exif(img.path) == Taken(img.taken)
       && exists k: nat, x :: DirAt(root, k, x) && k <= maxDepth && img.path in x.files {
      var k: nat, x :| DirAt(root, k, x) && k <= maxDepth && img.path in x.files;
      WalkComplete(root, 0, maxDepth, exif, k, x, img.path, img.taken);
    }
  }

  /** Every file of the tree in pre-order: a directory's own files, then each
      subdirectory's listing in order, with no depth bound and no filter. */
  function Listing(d: Dir): seq<string>
    decreases d, 1
  {
    d.files + ListingAll(d.subdirs)
  }

  function ListingAll(ds: seq<Dir>): seq<string>
    decreases ds, 0
  {
    if |ds| == 0 then [] else Listing(ds[0]) + ListingAll(ds[1..])
  }

  /** Order: the indexed paths appear in the order of the tree's pre-order
      listing (own files first, then subdirectories in listing order). */
  lemma {:induction false} WalkOrdered(d: Dir, depth: nat, maxDepth: int, exif: Exif)
    ensures Sequences.IsSubsequence(Paths(Walk(d, depth, maxDepth, exif)), Listing(d))
    decreases d, 1
  {
    var own := Qualifying(d.files, exif);
    QualifyingOrdered(d.files, exif);
    if |d.subdirs| != 0 && depth < maxDepth {
      var rest := WalkAll(d.subdirs, depth + 1, maxDepth, exif);
      WalkAllOrdered(d.subdirs, depth + 1, maxDepth, exif);
      PathsConcat(own, rest);
      Sequences.SubsequenceConcat(Paths(own), d.files, Paths(rest), ListingAll(d.subdirs));
    } else {
      Sequences.SubsequenceEmpty(ListingAll(d.subdirs));
      Sequences.SubsequenceConcat(Paths(own), d.files, [], ListingAll(d.subdirs));
      assert Paths(own) + [] == Paths(own);
    }
  }

  lemma {:induction false} WalkAllOrdered(ds: seq<Dir>, depth: nat, maxDepth: int, exif: Exif)
    ensures Sequences.IsSubsequence(Paths(WalkAll(ds, depth, maxDepth, exif)), ListingAll(ds))
    decreases ds, 0
  {
    if |ds| == 0 {
      Sequences.SubsequenceEmpty<string>([]);
    } else {
      var first := Walk(ds[0], depth, maxDepth, exif);
      var rest := WalkAll(ds[1..], depth, maxDepth, exif);
      WalkOrdered(ds[0], depth, maxDepth, exif);
      WalkAllOrdered(ds[1..], depth, maxDepth, exif);
      PathsConcat(first, rest);
      Sequences.SubsequenceConcat(Paths(first), Listing(ds[0]), Paths(rest), ListingAll(ds[1..]));
    }
  }

  lemma PathsConcat(a: seq<Image>, b: seq<Image>)
    ensures Paths(a + b) == Paths(a) + Paths(b)
  {
  }

  /** The files whose metadata `GetImagePaths(d.path, depth, maxDepth)` reads,
      in the order it reads them. */
  function Examined(d: Dir, depth: nat, maxDepth: int): seq<string>
    decreases d, 1
  {
    if |d.subdirs| != 0 && depth < maxDepth then d.files + ExaminedAll(d.subdirs, depth + 1, maxDepth)
    else d.files
  }

  function ExaminedAll(ds: seq<Dir>, depth: nat, maxDepth: int): seq<string>
    decreases ds, 0
  {
    if |ds| == 0 then [] else Examined(ds[0], depth, maxDepth) + ExaminedAll(ds[1..], depth, maxDepth)
  }

  /** The walk reads the metadata of a file of a directory `k` levels down
      iff `k <= maxDepth`. */
  lemma ExaminedBound(root: Dir, maxDepth: nat, f: string)
    ensures f in Examined(root, 0, maxDepth)
      <==> exists k: nat, x :: DirAt(root, k, x) && k <= maxDepth && f in x.files
  {
    var dated: Exif := p => Taken(DateTime(0));
    var img := Image(f, DateTime(0));
    WalkExamines(root, 0, maxDepth, dated);
    QualifyingExact(Examined(root, 0, maxDepth), dated, img);
    DepthBound(root, maxDepth, dated, img);
  }

  /** The walk keeps exactly the dated files among those it reads, in the
      order it reads them. */
  lemma {:induction false} WalkExamines(d: Dir, depth: nat, maxDepth: int, exif: Exif)
    ensures Walk(d, depth, maxDepth, exif) == Qualifying(Examined(d, depth, maxDepth), exif)
    decreases d, 1
  {
    if |d.subdirs| != 0 && depth < maxDepth {
      WalkAllExamines(d.subdirs, depth + 1, maxDepth, exif);
      QualifyingConcat(d.files, ExaminedAll(d.subdirs, depth + 1, maxDepth), exif);
    }
  }

  lemma {:induction false} WalkAllExamines(ds: seq<Dir>, depth: nat, maxDepth: int, exif: Exif)
    ensures WalkAll(ds, depth, maxDepth, exif) == Qualifying(ExaminedAll(ds, depth, maxDepth), exif)
    decreases ds, 0
  {
    if |ds| != 0 {
      WalkExamines(ds[0], depth, maxDepth, exif);
      WalkAllExamines(ds[1..], depth, maxDepth, exif);
      QualifyingConcat(Examined(ds[0], depth, maxDepth), ExaminedAll(ds[1..], depth, maxDepth), exif);
    }
  }

  lemma {:induction false} QualifyingConcat(a: seq<string>, b: seq<string>, exif: Exif)
    ensures Qualifying(a + b, exif) == Qualifying(a, exif) + Qualifying(b, exif)
    decreases |a|
  {
    if |a| != 0 {
      assert (a + b)[1..] == a[1..] + b;
      QualifyingConcat(a[1..], b, exif);
    } else {
      assert a + b == b;
    }
  }

  /** `GetImagePaths` ends the command, instead of returning, iff the reader
      throws an exception it does not catch on one of the files it reads. */
  predicate WalkAborts(d: Dir, maxDepth: int, exif: Exif)
  {
    exists f :: f in Examined(d, 0, maxDepth) && exif(f) == Aborts
  }

  /** From the root, the walk aborts iff some file at most `maxDepth` levels
      down makes the reader throw an exception other than an
      `ImageProcessingException`; deeper files cannot abort it. */
  lemma AbortBound(root: Dir, maxDepth: nat, exif: Exif)
    ensures WalkAborts(root, maxDepth, exif)
      <==> exists k: nat, x, f :: DirAt(root, k, x) && k <= maxDepth && f in x.files && exif(f) == Aborts
  {
    if WalkAborts(root, maxDepth, exif) {
      var f :| f in Examined(root, 0, maxDepth) && exif(f) == Aborts;
      ExaminedBound(root, maxDepth, f);
    }
    if exists k: nat, x, f :: DirAt(root, k, x) && k <= maxDepth && f in x.files && exif(f) == Aborts {
      var k: nat, x, f :| DirAt(root, k, x) && k <= maxDepth && f in x.files && exif(f) == Aborts;
      assert exists j: nat, y :: DirAt(root, j, y) && j <= maxDepth && f in y.files;
      ExaminedBound(root, maxDepth, f);
    }
  }
}

=== FILE: media_device.dfy ===
/** The media-device backend of FS/MediaDevice.cs: the process-wide registry
    of connected devices, memoised by name, and the trimming of the device
    prefix from every path handed to the device. */
module MediaDevice {

  import opened Wrappers

  /** A device as the MediaDevices library lists it: its friendly name and
      an identity telling two devices of the same name apart. */
  datatype Device = Device(friendlyName: string, id: nat)

  /** Process-wide device state: the static `Devices` dictionary, and the
      devices `Connect` has been called on. */
  datatype Registry = Registry(devices: map<string, Device>, connected: set<Device>)

  datatype DeviceError = NotConnected(name: string) | PathTooShort(path: string)

  /** A constructed `MediaDevice` file system. */
  datatype MediaFs = MediaFs(deviceName: string, device: Device)

  /** The constructor's result and the registry after it. */
  datatype Opened = Opened(fs: Result<MediaFs, DeviceError>, registry: Registry)

  /** Index of the first device named `name`, or `|attached|`. */
  function FirstNamed(attached: seq<Device>, name: string): (i: nat)
    ensures i <= |attached|
    ensures i < |attached| ==> attached[i].friendlyName == name
    ensures forall k :: 0 <= k < i ==> attached[k].friendlyName != name
  {
    if |attached| == 0 then 0
    else if attached[0].friendlyName == name then 0
    else 1 + FirstNamed(attached[1..], name)
  }

  /** The constructor `MediaDevice(name)`. `attached` is what
      `MediaDevices.MediaDevice.GetDevices()` returns at that moment. */
  function Open(name: string, reg: Registry, attached: seq<Device>): (r: Opened)
    ensures name in reg.devices ==> r == Opened(Success(MediaFs(name, reg.devices[name])), reg)
    ensures name !in reg.devices && (forall k :: 0 <= k < |attached| ==> attached[k].friendlyName != name) ==>
      r == Opened(Failure(NotConnected(name)), reg)
    ensures name !in reg.devices && (exists k :: 0 <= k < |attached| && attached[k].friendlyName == name) ==>
      && r.fs.Success?
      && r.fs.value.deviceName == name
      && r.fs.value.device.friendlyName == name
      && (exists i :: 0 <= i < |attached| && attached[i] == r.fs.value.device
            && forall k :: 0 <= k < i ==> attached[k].friendlyName != name)
      && r.registry.devices.Keys == reg.devices.Keys + {name}
      && r.registry.devices[name] == r.fs.value.device
      && (forall n :: n in reg.devices ==> r.registry.devices[n] == reg.devices[n])
      && r.registry.connected == reg.connected + {r.fs.value.device}
  {
    if name in reg.devices then Opened(Success(MediaFs(name, reg.devices[name])), reg)
    else
      var i := FirstNamed(attached, name);
      if i == |attached| then Opened(Failure(NotConnected(name)), reg)
      else
        var device := attached[i];
        var stored := reg.(devices := reg.devices[name := device]);
        Opened(Success(MediaFs(name, device)), stored.(connected := stored.connected + {device}))
  }

  /** Memoisation: once a name is open, opening it again returns the same
      device and leaves the registry alone, whatever devices are attached by
      then (even none). */
  lemma OpenIsMemoised(name: string, reg: Registry, attached: seq<Device>, later: seq<Device>)
    requires Open(name, reg, attached).fs.Success?
    ensures var first := Open(name, reg, attached);
            Open(name, first.registry, later) == first
  {
  }

  /** `TrimDeviceName`: a path containing ':' loses its first
      `|DeviceName| + 1` characters (the device name and the colon); any other
      path is passed on as it is. Slicing past the end throws, which is
      `None` here. */
  function TrimDeviceName(deviceName: string, path: string): (r: Option<string>)
    ensures ':' !in path ==> r == Some(path)
    ensures ':' in path ==> (r.Some? <==> |deviceName| + 1 <= |path|)
    ensures ':' in path && r.Some? ==> path[..|deviceName| + 1] + r.value == path && |r.value| == |path| - |deviceName| - 1
  {
    if ':' in path then
      if |deviceName| + 1 <= |path| then Some(path[|deviceName| + 1..]) else None
    else Some(path)
  }

  /** The device-qualified form `name:rest` is trimmed back to `rest`. */
  lemma TrimQualified(deviceName: string, rest: string)
    ensures TrimDeviceName(deviceName, deviceName + ":" + rest) == Some(rest)
  {
  }

  /** The operations a `MediaDevice` file system offers. */
  datatype Operation =
    | GetDirectories | GetFiles | PathExists | OpenRead | OpenWrite
    | CreateDirectory | DeleteFile | EnumerateFiles | EnumerateDirectories

  /** The calls the wrapper makes on the library device. */
  datatype Request =
    | ListDirectories(path: string) | ListFiles(path: string)
    | FileExists(path: string) | DirectoryExists(path: string)
    | DownloadFile(path: string) | UploadFile(path: string)
    | MakeDirectory(path: string) | RemoveFile(path: string)
    | StreamFiles(path: string) | StreamDirectories(path: string)

  /** What the device holds, as far as existence checks can see. */
  datatype DeviceView = DeviceView(files: set<string>, dirs: set<string>)

  /** The device's answer to an existence query; `false` for any other call. */
  function Answer(view: DeviceView, q: Request): bool
  {
    match q
    case FileExists(p) => p in view.files
    case DirectoryExists(p) => p in view.dirs
    case _ => false
  }

  /** The library calls an operation on `path` makes, in order, under the
      device lock. `PathExists` asks whether a file exists and, because `||`
      short-circuits, asks about a directory only when the device said no;
      `view` is what the device holds at that moment. */
  function Requests(fs: MediaFs, op: Operation, view: DeviceView, path: string): (r: Result<seq<Request>, DeviceError>)
    ensures r.Failure? <==> TrimDeviceName(fs.deviceName, path).None?
    ensures r.Success? ==> |r.value| >= 1
    ensures r.Success? ==>
      forall k :: 0 <= k < |r.value| ==> r.value[k].path == TrimDeviceName(fs.deviceName, path).value
  {
    match TrimDeviceName(fs.deviceName, path)
    case None => Failure(PathTooShort(path))
    case Some(p) =>
      Success(match op
        case GetDirectories => [ListDirectories(p)]
        case GetFiles => [ListFiles(p)]
        case PathExists =>
          if Answer(view, FileExists(p)) then [FileExists(p)] else [FileExists(p), DirectoryExists(p)]
        case OpenRead => [DownloadFile(p)]
        case OpenWrite => [UploadFile(p)]
        case CreateDirectory => [MakeDirectory(p)]
        case DeleteFile => [RemoveFile(p)]
        case EnumerateFiles => [StreamFiles(p)]
        case EnumerateDirectories => [StreamDirectories(p)])
  }

  /** A device path and its device-qualified form reach the device as the
      same calls. */
  lemma QualifiedPathSameRequests(fs: MediaFs, op: Operation, view: DeviceView, rest: string)
    requires ':' !in rest
    ensures Requests(fs, op, view, fs.deviceName + ":" + rest) == Requests(fs, op, view, rest)
  {
  }

  /** `PathExists`: the trimmed path names a file or a directory on the device. */
  function Exists(fs: MediaFs, view: DeviceView, path: string): (r: Result<bool, DeviceError>)
    ensures r.Failure? <==> TrimDeviceName(fs.deviceName, path).None?
    ensures r.Success? ==>
      var p := TrimDeviceName(fs.deviceName, path).value;
      (r.value <==> p in view.files || p in view.dirs)
    ensures r.Failure? <==> Requests(fs, PathExists, view, path).Failure?
    ensures r.Success? ==>
      var q := Requests(fs, PathExists, view, path).value;
      (r.value <==> Answer(view, q[|q| - 1]))
  {
    match TrimDeviceName(fs.deviceName, path)
    case None => Failure(PathTooShort(path))
    case Some(p) => Success(p in view.files || p in view.dirs)
  }

  /** `PathExists` against the calls it makes: it fails exactly when they
      cannot be made; the first call asks about a file; a second call, about
      a directory, is made iff the first answered no; the result is the
      answer to the last call made, every earlier answer being no. */
  lemma ExistsShortCircuits(fs: MediaFs, view: DeviceView, path: string)
    ensures var e := Exists(fs, view, path);
            var q := Requests(fs, PathExists, view, path);
            && (e.Failure? <==> q.Failure?)
            && (q.Success? ==>
                  && q.value[0].FileExists?
                  && (|q.value| == 2 <==> !Answer(view, q.value[0]))
                  && (forall k :: 0 <= k < |q.value| - 1 ==> !Answer(view, q.value[k]))
                  && (e.value <==> Answer(view, q.value[|q.value| - 1])))
  {
  }

  /** A device path and its device-qualified form exist alike. */
  lemma QualifiedPathSameExists(fs: MediaFs, view: DeviceView, rest: string)
    requires ':' !in rest
    ensures Exists(fs, view, fs.deviceName + ":" + rest) == Exists(fs, view, rest)
  {
  }
}

=== FILE: naming.dfy ===
/** How CopyImages in DistributeCommand.cs names a copy when a file-name
    suffix is requested, and the rule that naming evidently intends. */
module Naming {

  import opened Wrappers
  import Text

  /** The rule as written: split the WHOLE destination path on '.', append the
      suffix to the first piece and keep only the second piece after it.
      `split[1]` does not exist when the path has no '.', which the code
      reports by throwing; that is `None` here. */
  function SplitSuffix(path: string, suffix: string): (r: Option<string>)
    ensures r.None? <==> '.' !in path
    ensures r.Some? ==>
      var i := Text.IndexOf(path, '.');
      var tail := path[i + 1..];
      r.value == path[..i] + suffix + "." + tail[..Text.IndexOf(tail, '.')]
  {
    var split := Text.Split(path, '.');
    if '.' in path then
      Text.SplitSecond(path, '.');
      Some(split[0] + suffix + "." + split[1])
    else
      assert split == [path];
      None
  }

  /** With a dot-free head `a` and a dot-free second piece `b`, the result is
      `a + suffix + "." + b`, and everything after a second dot is dropped. */
  lemma SplitSuffixShape(a: string, b: string, rest: string, suffix: string)
    requires '.' !in a && '.' !in b
    ensures SplitSuffix(a + "." + b, suffix) == Some(a + suffix + "." + b)
    ensures SplitSuffix(a + "." + b + "." + rest, suffix) == Some(a + suffix + "." + b)
  {
    SplitSuffixAt(a, b, suffix);
    assert Text.IndexOf(b, '.') == |b|;
    assert b[..|b|] == b;
    var tail := b + "." + rest;
    assert a + "." + b + "." + rest == a + "." + tail;
    SplitSuffixAt(a, tail, suffix);
    assert tail == b + ['.'] + rest;
    Text.PrefixBeforeSeparator(b, '.', rest);
    assert tail[..|b|] == b;
  }

  /** After a dot-free head `a` and one dot, the second piece is read off `tail`. */
  lemma SplitSuffixAt(a: string, tail: string, suffix: string)
    requires '.' !in a
    ensures SplitSuffix(a + "." + tail, suffix) == Some(a + suffix + "." + tail[..Text.IndexOf(tail, '.')])
  {
    var path := a + "." + tail;
    assert path == a + ['.'] + tail;
    Text.PrefixBeforeSeparator(a, '.', tail);
    assert path[|a|] == '.';
    assert path[..|a|] == a;
    assert path[|a| + 1..] == tail;
  }

  /** The extension of a file name: from its last '.' on, or empty when the
      name has no '.'. */
  function Extension(name: string): (e: string)
    ensures |e| <= |name| && e == name[|name| - |e|..]
    ensures e != [] <==> '.' in name
    ensures e == [] || (e[0] == '.' && '.' !in e[1..])
  {
    var i := Text.LastIndexOf(name, '.');
    name[i..]
  }

  /** The evidently intended rule: the suffix goes into the FILE NAME, before
      its last extension; the directory part is left alone. */
  function InsertSuffix(directory: string, name: string, suffix: string): (r: string)
    ensures directory <= r && |r| == |directory| + |name| + |suffix|
    ensures '.' in name && '.' !in suffix ==> Extension(r) == Extension(name)
  {
    var ext := Extension(name);
    var stem := name[..|name| - |ext|];
    var r := directory + stem + suffix + ext;
    if '.' in name && '.' !in suffix then
      assert r[|r| - |ext|..] == ext;
      assert r[|r| - |ext|] == '.';
      Text.LastIndexOfAt(r, '.', |r| - |ext|);
      r
    else r
  }

  /** The corrected rule keeps the directory and the extension, and removing
      the suffix gives back exactly the original destination. */
  lemma InsertSuffixKeepsPath(directory: string, name: string, suffix: string)
    ensures var r := InsertSuffix(directory, name, suffix);
            && directory <= r
            && r[..|r| - |Extension(name)|] == directory + name[..|name| - |Extension(name)|] + suffix
            && r[|r| - |Extension(name)|..] == Extension(name)
            && r[..|directory| + |name| - |Extension(name)|] + r[|r| - |Extension(name)|..]
               == directory + name
  {
    var ext := Extension(name);
    var stem := name[..|name| - |ext|];
    var r := InsertSuffix(directory, name, suffix);
    assert r == directory + stem + suffix + ext;
    assert r[..|r| - |ext|] == directory + stem + suffix;
    assert r[..|directory| + |stem|] == directory + stem;
    Text.Halves(name, |stem|);
  }

  /** A name `stem.ext` with a dot-free extension becomes `stem + suffix + ".ext"`. */
  lemma InsertSuffixShape(directory: string, stem: string, ext: string, suffix: string)
    requires '.' !in ext
    ensures InsertSuffix(directory, stem + "." + ext, suffix) == directory + stem + suffix + "." + ext
  {
    var name := stem + "." + ext;
    var i := Text.LastIndexOf(name, '.');
    assert name[|stem|] == '.';
    assert name[|stem| + 1..] == ext;
    assert i == |stem|;
    assert Extension(name) == "." + ext;
  }

  /** The rule as written moves the suffix into the destination directory
      when that directory's path contains a dot, and drops the file's
      extension: with `head = "D:\my"`, `rest = "photos\2023\"`,
      `stem = "img1"` and `ext = "jpg"`, the copy bound for
      `D:\my.photos\2023\img1.jpg` is sent to `D:\my_copy.photos\2023\img1`
      instead of `D:\my.photos\2023\img1_copy.jpg`. */
  lemma DottedDirectoryCounterexample(head: string, rest: string, stem: string, ext: string, suffix: string)
    requires '.' !in head && '.' !in rest && '.' !in stem && '.' !in ext
    ensures SplitSuffix(head + "." + rest + stem + "." + ext, suffix) == Some(head + suffix + "." + rest + stem)
    ensures InsertSuffix(head + "." + rest, stem + "." + ext, suffix) == head + "." + rest + stem + suffix + "." + ext
    ensures SplitSuffix(head + "." + rest + stem + "." + ext, suffix)
            != Some(InsertSuffix(head + "." + rest, stem + "." + ext, suffix))
  {
    var b := rest + stem;
    assert '.' !in b;
    var path := head + "." + rest + stem + "." + ext;
    Text.Regroup(head + ".", rest, stem);
    SplitSuffixShape(head, b, ext, suffix);
    var asWritten := head + suffix + "." + b;
    assert SplitSuffix(path, suffix) == Some(asWritten);
    Text.Regroup(head + suffix + ".", rest, stem);
    InsertSuffixShape(head + "." + rest, stem, ext, suffix);
    var intended := head + "." + rest + stem + suffix + "." + ext;
    assert |intended| == |asWritten| + 1 + |ext|;
  }

  /** A file name with two dots loses its real extension under the rule as
      written: `photo.edit.jpg` in `D:\2023\` becomes `D:\2023\photo_copy.edit`
      instead of `D:\2023\photo.edit_copy.jpg`. */
  lemma MultiDotCounterexample(directory: string, stem: string, middle: string, ext: string, suffix: string)
    requires '.' !in directory && '.' !in stem && '.' !in middle && '.' !in ext
    ensures SplitSuffix(directory + stem + "." + middle + "." + ext, suffix) == Some(directory + stem + suffix + "." + middle)
    ensures InsertSuffix(directory, stem + "." + middle + "." + ext, suffix) == directory + stem + "." + middle + suffix + "." + ext
    ensures SplitSuffix(directory + stem + "." + middle + "." + ext, suffix)
            != Some(InsertSuffix(directory, stem + "." + middle + "." + ext, suffix))
  {
    MultiDotAsWritten(directory, stem, middle, ext, suffix);
    MultiDotIntended(directory, stem, middle, ext, suffix);
    var asWritten := directory + stem + suffix + "." + middle;
    var intended := directory + stem + "." + middle + suffix + "." + ext;
    assert |intended| == |asWritten| + 1 + |ext|;
  }

  lemma MultiDotAsWritten(directory: string, stem: string, middle: string, ext: string, suffix: string)
    requires '.' !in directory && '.' !in stem && '.' !in middle && '.' !in ext
    ensures SplitSuffix(directory + stem + "." + middle + "." + ext, suffix) == Some(directory + stem + suffix + "." + middle)
  {
    var a := directory + stem;
    assert '.' !in a;
    assert directory + stem + "." + middle + "." + ext == a + "." + middle + "." + ext;
    SplitSuffixShape(a, middle, ext, suffix);
  }

  lemma MultiDotIntended(directory: string, stem: string, middle: string, ext: string, suffix: string)
    requires '.' !in ext
    ensures InsertSuffix(directory, stem + "." + middle + "." + ext, suffix) == directory + stem + "." + middle + suffix + "." + ext
  {
    var inner := stem + "." + middle;
    InsertSuffixShape(directory, inner, ext, suffix);
    Text.Regroup(directory, stem + ".", middle);
    Text.Regroup(directory, stem, ".");
  }
}

=== FILE: options.dfy ===
/** The command-line options of Options.cs: how the constructor fills in
    defaults, and the ordered checks of `Validate`. */
module CommandOptions {

  import opened Wrappers

  /** The text the parser passes for `--from`/`--to` when they are not given. */
  const CurrentDirectoryDefault := "The current directory."

  /** The structure used when `--structure` is not given: the verbatim string
      `yyyy\\MM\\`. */
  const DefaultStructure := "yyyy\\\\MM\\\\"

  datatype Options = Options(from: string, to: string, structure: string, depth: int, remove: bool)

  /** Why `Validate` rejects the options, in the order the checks run. */
  datatype ValidationError = DepthTooSmall | NoLocationGiven | InvalidFrom | InvalidTo

  /** The options after `Validate` (it rewrites `From` and `To` in place) and
      its verdict. */
  datatype Validated = Validated(options: Options, error: Option<ValidationError>)

  /** The constructor. `structure` is `None` for a null argument; `cwd` is
      `Directory.GetCurrentDirectory()`. */
  function Create(from: string, to: string, structure: Option<string>, depth: int, remove: bool, cwd: string): (o: Options)
    ensures from == CurrentDirectoryDefault ==> o.from == cwd
    ensures from != CurrentDirectoryDefault ==> o.from == from
    ensures to == CurrentDirectoryDefault ==> o.to == cwd
    ensures to != CurrentDirectoryDefault ==> o.to == to
    ensures structure.None? ==> o.structure == DefaultStructure
    ensures structure.Some? ==> o.structure == structure.value
    ensures o.depth == depth && o.remove == remove
  {
    Options(
      if from == CurrentDirectoryDefault then cwd else from,
      if to == CurrentDirectoryDefault then cwd else to,
      match structure case None => DefaultStructure case Some(s) => s,
      depth,
      remove)
  }

  /** `Validate`. `fullPath` is `Path.GetFullPath`, `None` where it throws. */
  function Validate(o: Options, cwd: string, fullPath: string -> Option<string>): (v: Validated)
    ensures v.error == Some(DepthTooSmall) <==> o.depth < 1
    ensures v.error == Some(NoLocationGiven) <==> o.depth >= 1 && o.from == cwd && o.to == cwd
    ensures v.error == Some(InvalidFrom) <==>
      o.depth >= 1 && !(o.from == cwd && o.to == cwd) && fullPath(o.from).None?
    ensures v.error == Some(InvalidTo) <==>
      o.depth >= 1 && !(o.from == cwd && o.to == cwd) && fullPath(o.from).Some? && fullPath(o.to).None?
    ensures v.error.None? <==>
      o.depth >= 1 && !(o.from == cwd && o.to == cwd) && fullPath(o.from).Some? && fullPath(o.to).Some?
    ensures v.error.None? ==> v.options == o.(from := fullPath(o.from).value, to := fullPath(o.to).value)
    ensures v.error == Some(InvalidTo) ==> v.options == o.(from := fullPath(o.from).value)
    ensures v.error.Some? && v.error != Some(InvalidTo) ==> v.options == o
  {
    if o.depth < 1 then Validated(o, Some(DepthTooSmall))
    else if o.from == cwd && o.to == cwd then Validated(o, Some(NoLocationGiven))
    else match fullPath(o.from)
      case None => Validated(o, Some(InvalidFrom))
      case Some(from) =>
        var o1 := o.(from := from);
        match fullPath(o.to)
        case None => Validated(o1, Some(InvalidTo))
        case Some(to) => Validated(o1.(to := to), None)
  }

  /** Leaving out both `--from` and `--to` is rejected (once the depth is
      acceptable), whatever the other options and the path normaliser do. */
  lemma DefaultsAreRejected(structure: Option<string>, depth: int, remove: bool, cwd: string, fullPath: string -> Option<string>)
    requires depth >= 1
    ensures Validate(Create(CurrentDirectoryDefault, CurrentDirectoryDefault, structure, depth, remove, cwd), cwd, fullPath).error
            == Some(NoLocationGiven)
  {
  }

  /** Giving either location explicitly, with paths the normaliser accepts and
      a depth of at least one, passes validation; the stored paths are then the
      normalised ones. */
  lemma ExplicitLocationAccepted(from: string, to: string, structure: Option<string>, depth: int, remove: bool,
                                 cwd: string, fullPath: string -> Option<string>)
    requires depth >= 1
    requires from != CurrentDirectoryDefault && from != cwd
    requires fullPath(from).Some?
    requires to == CurrentDirectoryDefault || fullPath(to).Some?
    requires fullPath(cwd).Some?
    ensures var o := Create(from, to, structure, depth, remove, cwd);
            var v := Validate(o, cwd, fullPath);
            && v.error.None?
            && v.options.from == fullPath(from).value
            && v.options.to == fullPath(o.to).value
            && v.options.structure == o.structure
  {
  }
}

=== FILE: sequences.dfy ===
/** Order-preserving subsequences, the relation between a queue and the
    items a pass over it keeps. */
module Sequences {

  /** `a` can be obtained from `b` by deleting elements, keeping the order. */
  predicate IsSubsequence<T(==)>(a: seq<T>, b: seq<T>)
    decreases |b|
  {
    if |a| == 0 then true
    else if |b| == 0 then false
    else if a[0] == b[0] then IsSubsequence(a[1..], b[1..])
    else IsSubsequence(a, b[1..])
  }

  lemma {:induction false} SubsequenceNoLonger<T>(a: seq<T>, b: seq<T>)
    requires IsSubsequence(a, b)
    ensures |a| <= |b|
    decreases |b|
  {
    if |a| != 0 {
      if a[0] == b[0] {
        SubsequenceNoLonger(a[1..], b[1..]);
      } else {
        SubsequenceNoLonger(a, b[1..]);
      }
    }
  }

  /** Dropping the head of `b` that `a` does not use keeps `a` a subsequence. */
  lemma {:induction false} SubsequenceSkip<T>(a: seq<T>, x: T, b: seq<T>)
    requires IsSubsequence(a, b)
    ensures IsSubsequence(a, [x] + b)
    decreases |b|, 1
  {
    if |a| != 0 && a[0] == x {
      assert ([x] + b)[1..] == b;
      SubsequenceTail(a, b);
    } else {
      assert ([x] + b)[1..] == b;
    }
  }

  /** Keeping the head of `b` as the head of `a` keeps `a` a subsequence. */
  lemma SubsequenceKeep<T>(a: seq<T>, x: T, b: seq<T>)
    requires IsSubsequence(a, b)
    ensures IsSubsequence([x] + a, [x] + b)
  {
  }

  lemma {:induction false} SubsequenceTail<T>(a: seq<T>, b: seq<T>)
    requires |a| > 0
    requires IsSubsequence(a, b)
    ensures IsSubsequence(a[1..], b)
    decreases |b|, 0
  {
    if a[0] == b[0] {
      SubsequenceSkip(a[1..], b[0], b[1..]);
      assert [b[0]] + b[1..] == b;
    } else {
      SubsequenceTail(a, b[1..]);
      SubsequenceSkip(a[1..], b[0], b[1..]);
      assert [b[0]] + b[1..] == b;
    }
  }

  /** Extra elements in front of `b` do not matter. */
  lemma {:induction false} SubsequencePrefix<T>(a: seq<T>, pre: seq<T>, b: seq<T>)
    requires IsSubsequence(a, b)
    ensures IsSubsequence(a, pre + b)
    decreases |pre|
  {
    if |pre| == 0 {
      assert pre + b == b;
    } else {
      SubsequencePrefix(a, pre[1..], b);
      SubsequenceSkip(a, pre[0], pre[1..] + b);
      assert [pre[0]] + (pre[1..] + b) == pre + b;
    }
  }

  /** Subsequences of two pieces concatenate to a subsequence of the whole. */
  lemma {:induction false} SubsequenceConcat<T>(a1: seq<T>, b1: seq<T>, a2: seq<T>, b2: seq<T>)
    requires IsSubsequence(a1, b1)
    requires IsSubsequence(a2, b2)
    ensures IsSubsequence(a1 + a2, b1 + b2)
    decreases |b1|
  {
    if |a1| == 0 {
      SubsequencePrefix(a2, b1, b2);
      assert a1 + a2 == a2;
    } else if a1[0] == b1[0] {
      SubsequenceConcat(a1[1..], b1[1..], a2, b2);
      assert (a1 + a2)[1..] == a1[1..] + a2;
      assert (b1 + b2)[1..] == b1[1..] + b2;
    } else {
      SubsequenceConcat(a1, b1[1..], a2, b2);
      assert (b1 + b2)[1..] == b1[1..] + b2;
    }
  }

  lemma SubsequenceEmpty<T>(b: seq<T>)
    ensures IsSubsequence([], b)
  {
  }
}

=== FILE: text.dfy ===
/** The string operations the modelled code relies on: `string.Contains(char)`,
    the first and last index of a character and `string.Split(char)` with .NET's
    semantics (every separator splits, empty pieces are kept). */
module Text {

  /** Position of the first `c` in `s`, or `|s|` when there is none. */
  function IndexOf(s: string, c: char): (i: nat)
    ensures i <= |s|
    ensures i < |s| <==> c in s
    ensures i < |s| ==> s[i] == c
    ensures c !in s[..i]
  {
    if |s| == 0 then 0
    else if s[0] == c then 0
    else
      var j := IndexOf(s[1..], c);
      assert s[..j + 1] == [s[0]] + s[1..][..j];
      j + 1
  }

  /** Position of the last `c` in `s`, or `|s|` when there is none. */
  function LastIndexOf(s: string, c: char): (i: nat)
    ensures i <= |s|
    ensures i < |s| <==> c in s
    ensures i < |s| ==> s[i] == c && c !in s[i + 1..]
  {
    if |s| == 0 then 0
    else if s[|s| - 1] == c then |s| - 1
    else
      var j := LastIndexOf(s[..|s| - 1], c);
      assert s[..|s| - 1] + [s[|s| - 1]] == s;
      if j == |s| - 1 then |s|
      else
        assert s[j + 1..] == s[..|s| - 1][j + 1..] + [s[|s| - 1]];
        j
  }

  /** The last `c` is the only `c` with none after it. */
  lemma LastIndexOfAt(s: string, c: char, i: nat)
    requires i < |s| && s[i] == c && c !in s[i + 1..]
    ensures LastIndexOf(s, c) == i
  {
  }

  /** `s.Split(c)`: the pieces between consecutive separators, in order. */
  function Split(s: string, c: char): (parts: seq<string>)
    ensures |parts| >= 1
    ensures forall k :: 0 <= k < |parts| ==> c !in parts[k]
    ensures parts[0] == s[..IndexOf(s, c)]
    decreases |s|
  {
    var i := IndexOf(s, c);
    if i == |s| then [s]
    else [s[..i]] + Split(s[i + 1..], c)
  }

  /** The first separator of `a + [c] + b` sits right after `a` when `a` has none. */
  lemma PrefixBeforeSeparator(a: string, c: char, b: string)
    requires c !in a
    ensures IndexOf(a + [c] + b, c) == |a|
  {
    var s := a + [c] + b;
    assert s[..|a|] == a;
    assert s[|a|] == c;
  }

  lemma Regroup(a: string, b: string, c: string)
    ensures a + (b + c) == a + b + c
  {
  }

  /** Cutting a string at `k` and gluing the halves back gives it again. */
  lemma Halves(s: string, k: nat)
    requires k <= |s|
    ensures s[..k] + s[k..] == s
  {
  }

  /** The second piece of a split is the text between the first and the
      second separator (or the end). */
  lemma SplitSecond(s: string, c: char)
    requires c in s
    ensures |Split(s, c)| >= 2
    ensures var tail := s[IndexOf(s, c) + 1..];
            Split(s, c)[1] == tail[..IndexOf(tail, c)]
  {
  }
}

=== FILE: wrappers.dfy ===
/** Option and Result values standing in for the null references and the
    exceptions of the modelled code. */
module Wrappers {

  datatype Option<+T> = None | Some(value: T)

  datatype Result<+R, +E> = Success(value: R) | Failure(error: E)
}
